=== FILE: README.md ===
# etcd backup operator: backup naming, selection and scheduling in Dafny

This project models the core of the etcd backup operator and proves properties of that model. The operator runs a backup sidecar next to an etcd cluster on Kubernetes. On every tick the sidecar does four things:

- It lists the cluster's pods.
- It asks each running member for its revision.
- It picks the member with the highest revision.
- When that revision is newer than the last one backed up, it streams a snapshot into a local staging file and uploads the file to S3.

The object key is `<version>_<revision as 16 lower-case hex digits>_etcd.backup`. On start-up the sidecar finds the latest backup by listing the bucket, dropping keys it cannot read, and taking the key with the highest revision. It uses that revision as the starting watermark. The control plane around the sidecar is modelled too:

- It validates the `EtcdBackup` resource's storage spec.
- It builds the sidecar's deployment: pod template, labels, S3 credentials and owner reference.
- It derives the names it uses, such as pod DNS names and sidecar names.

Every network, file-system and Kubernetes API call becomes an outcome value passed in as a parameter:

- `Probe` is the outcome of asking one member for its revision.
- `SaveEnv` gives the error (or byte count) of each staging step.
- `WriteEnv` gives the outcome of each step of taking a snapshot.
- `SetupEnv` gives the outcomes of the calls made during setup.
- Bucket listings and pod listings are `Result` values.

The effects the model can see are recorded as a trace of `Store.Event`s.

Modules, one per file except that `wrappers.dfy` holds both `Wrappers` and `Ints`:

- `Wrappers`: `Option`, `Result`, `Outcome`. `Ints`: the `int64` range.
- `Strings`: Go's `strings.SplitN`, `strings.Split`, `strings.Join`, `strings.Replace` and `HasSuffix` for one-character separators. `LexLess` is Go's `<` on strings.
- `Hex`:
  - `fmt.Sprintf("%016x")` on an `int64`. A negative value is written as `-` followed by its magnitude zero-padded to at least 15 digits, as Go does.
  - `strconv.ParseInt(_, 16, 64)`, with an optional sign, digits of either case, and a range check.
- `Paths`: `path.Clean` and `path.Join`. They are stated over path elements: empty and `.` elements vanish, and `..` removes the element before it.
- `BackupName`: the key format, `isBackup` and `getRev`.
- `Listing`: `filterAndSortBackups`, `backupNames.Less` and `getLatestBackupName`. The filter and the sort are parameterised by the revision reader.
- `Store`: the staging protocol of `s3Backend.save` and `s3Backend.getLatest`.
- `Backup`:
  - The setup steps: `New`, `ToS3Prefix` and the staging directory.
  - The selection step: `getMemberWithMaxRev`. It is a loop with invariants, checked against a loop-free reference `SelectMember`/`MaxAnsweredRev`.
  - The tick: `writeSnap`, `saveSnap` and `getLatestBackupRev`.
  - `Run`, as a finite sequence of ticks.
- `Api`, `Kube`: the `EtcdBackup` resource and the Kubernetes object fields used, as plain records.
- `K8sUtil`: pod DNS names, label maps, sidecar naming, owner references, attaching S3 to a pod spec, the sidecar pod template and deployment.
- `Operator`: `handleBackup` and `processItem`.

Behaviours of the code worth knowing, which the model follows:

- **Missing S3 source.** `New` dereferences a missing S3 source and panics (pkg/backup/backup.go:65). `Backup.New` returns `Failure(NilDereference)` for it.
- **Order of checks in `New`.** `New` creates the staging directory before it checks the storage type. A failing `mkdir` therefore wins over an unsupported storage type.
- **Listing failure at start-up.** A failed bucket listing at start-up ends the process (`logrus.Fatal`, pkg/backup/backup.go:220-222). `Backup.Run` reports it as `fatal`.
- **Negative revisions.** For a negative revision `%016x` writes `-` followed by at least 15 hex digits (more for magnitudes of 16^15 and above), not 16 hex digits. Such a key still reads back (`Hex.ParseFormatRoundTrip`), and a negative stored revision becomes the starting watermark.

## Model

| member | source | states |
|---|---|---|
| BackupName.MakeBackupName | pkg/backup/s3.go:69-71 | every key ends with the backup suffix (so `isBackup` accepts it) and starts with the version followed by `_` |
| Hex.FormatHex16Shape | pkg/backup/s3.go:70 | for a non-negative revision the middle field is exactly 16 lower-case hex digits whose value is the revision |
| Hex.FormatHex16NoUnderscore | pkg/backup/s3.go:70 | the revision field never contains `_`, for negative revisions too |
| Hex.ParseFormatRoundTrip | pkg/backup/backup.go:239 | base-16 `ParseInt` reads back every `int64` that `%016x` wrote, negative ones included |
| BackupName.GetRevNeedsTwoSeparators | pkg/backup/backup.go:233-237 | a name with fewer than two `_` has no revision |
| BackupName.GetRevBetweenSeparators | pkg/backup/backup.go:233-240 | when `_` appears twice, the revision is the base-16 parse of exactly the text between the first two `_`; the rest is ignored |
| BackupName.RoundTrip | pkg/backup/backup.go:233-240 | for a version without `_`, decoding the key made for any `int64` revision gives that revision back |
| BackupName.NameOrderIsRevisionOrder | pkg/backup/s3.go:69-71 | for one version and non-negative revisions, key `a` sorts before key `b` as Go strings exactly when `a < b` |
| Listing.FilterBy | pkg/backup/s3.go:113-123 | the filter keeps exactly the names with the suffix whose revision reads, each as often as listed, and drops the rest without failing |
| Listing.FilterByAppend | pkg/backup/s3.go:113-123 | the filter keeps listing order: filtering a concatenated listing gives the names kept from each part, one after the other |
| Listing.SortBy | pkg/backup/s3.go:125 | the sort returns a permutation of its input ordered non-decreasing by revision |
| Listing.SortByStable | pkg/backup/s3.go:125 | the sort is stable: the names of any one revision come out in their listed order |
| Listing.LessNeverPanics | pkg/backup/s3.go:94-105 | every pair of filtered names has readable revisions, so `Less`, the comparison the sort makes, never panics on them, and it orders by revision |
| Listing.FilterAndSortBackups | pkg/backup/s3.go:111-127 | the result holds each retained name as often as listed and nothing else, with every element readable and ordered by revision |
| Listing.GetLatestBackupName | pkg/backup/s3.go:82-88 | empty exactly when no listed name is retained; otherwise a listed retained name whose revision is at least every retained revision |
| Listing.LatestIsGreatestName | pkg/backup/s3.go:82-88 | when the bucket holds keys of one version, no retained key sorts after the chosen one as a string |
| Listing.LatestOfTwo | pkg/backup/s3.go:82-88 | of two retained names with different revisions and one non-backup, the higher revision is chosen |
| Listing.LatestOfTwoKeys | pkg/backup/s3.go:82-88 | of two keys of one version and one non-backup name, the key of the higher revision is chosen |
| Listing.LatestOfEqualRevisions | pkg/backup/s3.go:82-88 | of two retained names with the same revision, the one listed later is chosen |
| Listing.LatestOfSampleListing | pkg/backup/s3.go:82-88 | the listing of the keys for revisions 5 and 10 of version 3.2.0 and `not-a-backup` yields the key `3.2.0_000000000000000a_etcd.backup` |
| Store.Stage | pkg/backup/s3.go:43-66 | the save fails with -1 exactly when creating, copying, seeking or putting fails, and success returns the bytes copied. A create or copy error is wrapped as `failed to create snapshot tempfile: …` or `failed to save snapshot: …`; a seek or put error is returned as it is. A failed create leaves no trace. Once the file exists the trace creates that one file, copies once with the reported count, and ends by closing and removing it, each step at most once and in protocol order. Put is attempted exactly when the file was created, copied and rewound, always with the given key. Only a successful save makes its key visible |
| Store.StagedTraceFacts | pkg/backup/s3.go:43-66 | every trace of a save whose file exists cleans up, keeps protocol order, records the copied count, and puts only the given key after the copy and the rewind |
| Store.Save | pkg/backup/s3.go:40-67 | the promises of `Store.Stage`, with the key `makeBackupName(version, snapRev)` and the staging file `dir/key`: the same errors, no trace when the file cannot be created, cleanup once it exists, one file, one copy, at most one put, and every put carries that key |
| Store.GetLatest | pkg/backup/s3.go:73-80 | a listing failure becomes `failed to list s3 bucket: …`; otherwise the latest name by the rules of `getLatestBackupName` |
| Backup.ToS3PrefixPlain | pkg/backup/backup.go:86-88 | with plain path elements the prefix is `<prefix>/v1/<namespace>/<cluster>` |
| Backup.ToS3PrefixDefault | pkg/backup/backup.go:86-88 | with an empty prefix the backups go under `v1/<namespace>/<cluster>` |
| Backup.StagingDirPlain | pkg/backup/backup.go:53-54 | for a plain cluster name snapshots are staged in `/var/etcd-backup/v1/<cluster>/tmp` |
| Backup.New | pkg/backup/backup.go:52-82 | setup succeeds exactly when the directory is created, the storage type is `s3`, the S3 source is present and the client is created. Each failure is reported with its own error, in the source's order. A successful setup has the staging directory, the bucket from the environment and the cluster's S3 prefix |
| Backup.IntervalSeconds | pkg/backup/backup.go:92-95 | the tick interval is 1800 seconds when the spec says 0, otherwise the spec's value |
| Backup.GetLatestBackupRev | pkg/backup/backup.go:217-231 | a listing failure is the only failure, and decoding the latest name never fails; the seed is 0 for a bucket with no retained backup, otherwise the greatest retained revision |
| Backup.MaxAnsweredRev | pkg/backup/backup.go:180-213 | the selected revision is at least 0, at least every answered revision, and is 0 or some candidate's answer |
| Backup.SelectMember | pkg/backup/backup.go:179-215 | no member exactly when no candidate answered above 0; otherwise the first candidate to answer the greatest revision |
| Backup.GetMemberWithMaxRev | pkg/backup/backup.go:179-215 | the loop skips unreachable and silent candidates and replaces its choice only on a strictly greater revision. It returns nil and 0 when nothing answered above 0, otherwise the first member holding the greatest answered revision. It agrees with `SelectMember`/`MaxAnsweredRev` |
| Backup.SelectFirstMax | pkg/backup/backup.go:209-212 | the first candidate holding the greatest revision is unique, and it is the one `SelectMember` names |
| Backup.WriteSnap | pkg/backup/backup.go:144-177 | the write succeeds exactly when the client, the status call, the snapshot stream and the save all succeed; success uploads exactly the key of the member's version and the revision, failure uploads nothing. A failed dial, status call or snapshot stream stages nothing and reports `failed to create etcd client (…)`, the status error, or `failed to receive snapshot (…)`. The snapshot is read from the given member exactly when those three steps succeed, and the save's error and trace are then the result, so a failed save still closes and removes its staging file. At most one put occurs |
| Backup.RunningCandidates | pkg/backup/backup.go:112-118 | exactly the pods in phase Running are kept, each as often as listed |
| Backup.RunningCandidatesAppend | pkg/backup/backup.go:112-118 | the running pods keep listing order: those of a concatenated listing are the running pods of each part, one after the other |
| Backup.SaveSnap | pkg/backup/backup.go:106-142 | a pod-listing error, no running pod, or no reachable member keeps the watermark with an error and writes nothing. A selected revision not above the watermark keeps it with no error and writes nothing. When the selected revision is above the watermark, the tick's events are those of `writeSnap` for the selected member and revision. A successful write moves the watermark to that revision with no error. A failed write keeps the watermark and reports `write snapshot failed: …`. The watermark never decreases, and it moves only to the selected revision, on a write that uploaded that revision's key. A snapshot is read only from the member `SelectMember` chooses, the watermark moves only after such a read, and at most one put occurs |
| Backup.Watermarks | pkg/backup/backup.go:96-103 | the watermark sequence has one entry per tick plus the final one and starts at the seed |
| Backup.WatermarksStep | pkg/backup/backup.go:98-102 | tick `i` starts from watermark `i`, and its `saveSnap` result is watermark `i + 1` |
| Backup.WatermarksNeverDecrease | pkg/backup/backup.go:96-103 | the watermark never decreases from one tick to any later one |
| Backup.Run | pkg/backup/backup.go:90-104 | the interval follows the spec and a failed start-up listing is fatal; otherwise the watermarks are those of the ticks seeded with the latest stored revision (0 for an empty bucket) |
| K8sUtil.PodDNSName | pkg/util/k8sutil/k8sutil.go:26-29 | the name is the pod IP with every `.` turned into `-` (same length, no `.` left, other characters kept), then `.`, the namespace and `.pod` |
| K8sUtil.PodDNSNameDistinguishesIPs | pkg/util/k8sutil/k8sutil.go:26-29 | in one namespace, pods whose IPs hold no `-` get equal DNS names exactly when their IPs are equal |
| K8sUtil.LabelsForCluster | pkg/util/k8sutil/k8sutil.go:48-53 | exactly the two labels `etcd_cluster` → cluster name and `app` → `etcd` |
| K8sUtil.BackupSidecarLabels | pkg/util/k8sutil/backup.go:87-92 | exactly the two labels `app` → `etcd_backup_tool` and `etcd_cluster` → cluster name |
| K8sUtil.ClusterSelectorSkipsSidecars | pkg/util/k8sutil/k8sutil.go:60-64 | the selector used to list a cluster's etcd pods never matches a backup sidecar pod |
| K8sUtil.BackupSidecarName | pkg/util/k8sutil/backup.go:83-85 | the sidecar name is the backup's name followed by `-backup-sidecar` |
| K8sUtil.BackupSidecarNameInjective | pkg/util/k8sutil/backup.go:83-85 | different backups get different sidecar names |
| K8sUtil.AddOwnerRefToObject | pkg/util/k8sutil/k8sutil.go:32-34 | the owner references are the old ones, unchanged, with the new one appended; name and labels unchanged |
| K8sUtil.AsOwner | pkg/util/k8sutil/k8sutil.go:37-46 | the reference has API version `etcd.database.coreos.com/v1alpha1`, kind `EtcdBackup`, the backup's name and UID, and is the controller |
| K8sUtil.AttachS3ToPodSpec | pkg/util/k8sutil/backup.go:64-81 | the first container gains exactly the `secret-aws` mount at `/root/.aws/` and the `AWS_S3_BUCKET` variable; the pod gains exactly the secret volume; everything else is unchanged |
| K8sUtil.NewBackupPodTemplate | pkg/util/k8sutil/backup.go:19-55 | one `backup` container with the backup image and the command `/usr/local/bin/etcd-backup --etcd-cluster=<cluster>`, given its namespace from the pod metadata and the spec as JSON; the template is named after the cluster and carries the sidecar labels |
| K8sUtil.NewBackupDeploymentManifest | pkg/util/k8sutil/backup.go:94-110 | the selector is the template's labels, so it matches the template; the strategy is Recreate; the owner is the only owner reference |
| K8sUtil.MakeSidecarDeployment | pkg/cluster/backup_manager.go:45-52 | the sidecar deployment is named after the backup, labelled for the cluster, owned by the backup, and selects its own pods by the sidecar labels; its one container receives the bucket name and the pod mounts the AWS secret |
| Operator.HandleBackup | pkg/operator/sync.go:61-70 | a spec passes exactly when its storage type is `s3` and the S3 source is present; any other storage type is rejected first, even without a source |
| Operator.ProcessItem | pkg/operator/sync.go:43-59 | an indexer error or a deep-copy error is returned; an absent key is success without validation; a present object is validated and the call succeeds whatever the validation says |
| Operator.RejectedSpecIsDropped | pkg/operator/sync.go:57-58 | a spec that validation rejects still leaves `processItem` successful |

## Left out

- The etcd client (creating clients, `Get`, `Maintenance.Status`, `Snapshot`) and TLS setup. Each call is an outcome parameter. `Member.ClientURL` lives in the etcdutil member file, which is not part of this model. `WriteSnap` records the member a snapshot stream was opened from as the result's `source`, standing for the endpoint it dials.
- The S3 client and the file system (`s3.New`, `Put`, `List`, `os.OpenFile`, `io.Copy`, `Seek`, `MkdirAll`, `Remove`). They appear only as step outcomes and the event trace. Snapshot contents are not modelled, only their byte count.
- Deferred `Close` calls of etcd clients and snapshot streams, and the `cancel` of contexts. These are resource lifetime, not behaviour.
- Logging. The timer: `Run` is modelled over a finite sequence of ticks instead of an endless loop.
- Backup.IntervalSeconds: does not model the `int64` nanosecond overflow of `time.Duration(n) * time.Second` for very large intervals, because the interval only feeds the timer, which is not modelled.
- `json.Marshal` of the spec is the `specJson` parameter of `K8sUtil.NewBackupPodTemplate`, and its panic on a marshal error is not modelled. `labels.SelectorFromSet` in `ClusterListOpt` is stated as the `Kube.Selects` predicate instead of being rendered to text.
- K8sUtil.AttachS3ToPodSpec: requires a first container, because the source indexes it and would panic.
- K8sUtil.MakeSidecarDeployment: requires an S3 source, because the source dereferences it and would panic.
- `scheme.Scheme.DeepCopy` is the `copyErr` parameter of `Operator.ProcessItem`; a successful copy equals the original.
- The work queue, informers, `processNextItem` and `handleErr` are left out. So are CRD creation, leader election, process start-up, and the Deployment create call in the backup manager.
- Listing.SortBy: the model's sort is stable (`Listing.SortByStable`). Go's `sort.Sort` sorts up to six elements by a plain insertion sort, which is stable and gives the model's order. On longer listings it may reorder names of equal revision, so which of several equal-revision backups `getLatestBackupName` returns may differ from `Listing.LatestOfEqualRevisions`. The contracts of `Listing.FilterAndSortBackups` and `Listing.GetLatestBackupName` hold for every order.
- Go strings are byte strings and the model's are character sequences. Go compares strings by UTF-8 bytes, which orders them the same way as code points. `Strings.LexLess` compares code points.

=== FILE: api.dfy ===
/** The `EtcdBackup` custom resource (API group `etcd.database.coreos.com`,
    version `v1alpha1`) as plain records. */
module Api {
  import opened Wrappers

  const CRDResourceKind: string := "EtcdBackup"
  const GroupName: string := "etcd.database.coreos.com"
  const Version: string := "v1alpha1"

  /** `SchemeGroupVersion.String()`: group and version joined by `/`. */
  const SchemeGroupVersion: string := GroupName + "/" + Version

  /** Where in S3 the backups of one cluster go and which secret holds the
      AWS credentials. */
  datatype S3Source = S3Source(s3Bucket: string, prefix: string, awsSecret: string)

  /** The desired backup: which cluster, which storage, how often. A nil
      `S3` pointer is `None`. */
  datatype EtcdBackupSpec = EtcdBackupSpec(
    clusterName: string,
    storageType: string,
    s3: Option<S3Source>,
    backupIntervalInSecond: int)

  /** The resource's identity (name, namespace, UID) and its spec. */
  datatype EtcdBackup = EtcdBackup(name: string, namespace: string, uid: string, spec: EtcdBackupSpec)
}

=== FILE: backup.dfy ===
/** One backup sidecar: setting up its storage, choosing the etcd member to
    snapshot, and the periodic tick that advances the stored revision. The
    etcd client, the Kubernetes API and the S3 client are replaced by the
    outcomes of their calls. */
module Backup {
  import opened Wrappers
  import opened Ints
  import Paths
  import Strings
  import opened BackupName
  import opened Listing
  import opened Store
  import opened Api
  import opened Kube

  const BackupMountDir: string := "/var/etcd-backup"
  const BackupTmpDir: string := "tmp"
  const S3V1: string := "v1"

  /** `constants.DefaultSnapshotInterval`, in seconds. */
  const DefaultSnapshotInterval: int := 1800

  /** The error standing for the run-time panic of dereferencing a nil pointer. */
  const NilDereference: string := "invalid memory address or nil pointer dereference"

  // ------------------------------------------------------------------
  // Setup

  /** `ToS3Prefix`: where in the bucket the backups of one cluster go. */
  function ToS3Prefix(s3Prefix: string, namespace: string, clusterName: string): string {
    Paths.Join([s3Prefix, S3V1, namespace, clusterName])
  }

  /** With plain path elements the prefix is the four parts joined by `/`. */
  lemma {:induction false} ToS3PrefixPlain(s3Prefix: string, namespace: string, clusterName: string)
    requires Paths.IsPlainElement(s3Prefix)
    requires Paths.IsPlainElement(namespace) && Paths.IsPlainElement(clusterName)
    ensures ToS3Prefix(s3Prefix, namespace, clusterName)
         == s3Prefix + "/" + S3V1 + "/" + namespace + "/" + clusterName
  {
    Paths.JoinPlain([s3Prefix, S3V1, namespace, clusterName]);
    JoinThree(S3V1, namespace, clusterName);
    Strings.JoinCons(s3Prefix, [S3V1, namespace, clusterName], '/');
  }

  /** Three parts joined by `/`. */
  lemma {:induction false} JoinThree(a: string, b: string, c: string)
    ensures Strings.JoinWith([a, b, c], '/') == a + "/" + b + "/" + c
  {
    Strings.JoinCons(b, [c], '/');
    Strings.JoinCons(a, [b, c], '/');
    assert [a] + [b, c] == [a, b, c];
    assert [b] + [c] == [b, c];
  }

  /** Without a prefix, the backups go under `v1/<namespace>/<cluster>`. */
  lemma {:induction false} ToS3PrefixDefault(namespace: string, clusterName: string)
    requires Paths.IsPlainElement(namespace) && Paths.IsPlainElement(clusterName)
    ensures ToS3Prefix("", namespace, clusterName) == S3V1 + "/" + namespace + "/" + clusterName
  {
    assert [S3V1, namespace, clusterName] == ["", S3V1, namespace, clusterName][1..];
    Paths.JoinPlain([S3V1, namespace, clusterName]);
    JoinThree(S3V1, namespace, clusterName);
  }

  /** The local directory snapshots are staged in before upload. */
  function StagingDir(clusterName: string): string {
    Paths.Join([Paths.Join([BackupMountDir, "v1", clusterName]), BackupTmpDir])
  }

  /** The fixed parts of the staging directory are plain path elements. */
  lemma MountDirElements()
    ensures BackupMountDir == "/" + Strings.JoinWith(["var", "etcd-backup"], '/')
    ensures Paths.IsPlainElement("var") && Paths.IsPlainElement("etcd-backup")
    ensures Paths.IsPlainElement("v1") && Paths.IsPlainElement(BackupTmpDir)
  {
    Strings.JoinCons("var", ["etcd-backup"], '/');
  }

  /** For a plain cluster name, snapshots are staged in
      `/var/etcd-backup/v1/<cluster>/tmp`. */
  lemma {:induction false} StagingDirPlain(clusterName: string)
    requires Paths.IsPlainElement(clusterName)
    ensures StagingDir(clusterName) == BackupMountDir + "/v1/" + clusterName + "/" + BackupTmpDir
  {
    var mount := ["var", "etcd-backup"];
    var inner := mount + ["v1", clusterName];
    MountDirElements();
    Paths.JoinRootedPlain(mount, ["v1", clusterName]);
    assert [BackupMountDir] + ["v1", clusterName] == [BackupMountDir, "v1", clusterName];
    Paths.JoinRootedPlain(inner, [BackupTmpDir]);
    assert [Paths.Join([BackupMountDir, "v1", clusterName])] + [BackupTmpDir]
        == [Paths.Join([BackupMountDir, "v1", clusterName]), BackupTmpDir];
    assert inner + [BackupTmpDir] == mount + ["v1", clusterName, BackupTmpDir];
    Strings.JoinWithAppend(mount, ["v1", clusterName, BackupTmpDir], '/');
    JoinThree("v1", clusterName, BackupTmpDir);
  }

  /** How the effects of `New` turn out: creating the staging directory, the
      `AWS_S3_BUCKET` environment variable, and creating the S3 client. */
  datatype SetupEnv = SetupEnv(mkdirErr: Option<string>, bucket: string, s3ClientErr: Option<string>)

  /** A set-up sidecar: its spec and cluster, where it stages snapshots, and
      the bucket and prefix it uploads to. */
  datatype Sidecar = Sidecar(
    spec: EtcdBackupSpec, clusterName: string, namespace: string,
    dir: string, bucket: string, prefix: string)

  /** `New`: create the staging directory, insist on S3 storage, then create
      the S3 client for the cluster's prefix. The source reads the S3 source
      without checking it is there; that panic is an error here. */
  function New(sp: EtcdBackupSpec, clusterName: string, namespace: string, env: SetupEnv): (r: Result<Sidecar>)
    ensures r.Success? <==> env.mkdirErr.None? && sp.storageType == "s3" && sp.s3.Some? && env.s3ClientErr.None?
    ensures env.mkdirErr.Some? ==> r == Failure(env.mkdirErr.value)
    ensures env.mkdirErr.None? && sp.storageType != "s3" ==>
      r == Failure("unsupported storage type: " + sp.storageType)
    ensures env.mkdirErr.None? && sp.storageType == "s3" && sp.s3.None? ==> r == Failure(NilDereference)
    ensures env.mkdirErr.None? && sp.storageType == "s3" && sp.s3.Some? && env.s3ClientErr.Some? ==>
      r == Failure(env.s3ClientErr.value)
    ensures r.Success? ==>
      && r.value.spec == sp && r.value.clusterName == clusterName && r.value.namespace == namespace
      && r.value.dir == StagingDir(clusterName) && r.value.bucket == env.bucket
      && r.value.prefix == ToS3Prefix(sp.s3.value.prefix, namespace, clusterName)
  {
    if env.mkdirErr.Some? then Failure(env.mkdirErr.value)
    else if sp.storageType != "s3" then Failure("unsupported storage type: " + sp.storageType)
    else if sp.s3.None? then Failure(NilDereference)
    else if env.s3ClientErr.Some? then Failure(env.s3ClientErr.value)
    else Success(Sidecar(sp, clusterName, namespace, StagingDir(clusterName), env.bucket,
                         ToS3Prefix(sp.s3.value.prefix, namespace, clusterName)))
  }

  /** The seconds between two ticks: the spec's interval, or the default when it is 0. */
  function IntervalSeconds(spec: EtcdBackupSpec): (r: int)
    ensures spec.backupIntervalInSecond == 0 ==> r == DefaultSnapshotInterval
    ensures spec.backupIntervalInSecond != 0 ==> r == spec.backupIntervalInSecond
  {
    if spec.backupIntervalInSecond != 0 then spec.backupIntervalInSecond else DefaultSnapshotInterval
  }

  /** `getLatestBackupRev`: the revision of the latest backup in the bucket,
      0 when there is none. The source exits the process on an error; here
      that is a failure. Decoding the latest name never fails. */
  function GetLatestBackupRev(listing: Result<seq<string>>): (r: Result<int64>)
    ensures r.Failure? <==> listing.Failure?
    ensures listing.Failure? ==> r.error == "failed to list s3 bucket: " + listing.error
    ensures listing.Success? && (forall i :: 0 <= i < |listing.value| ==> !Retained(listing.value[i])) ==>
      r.value == 0
    ensures listing.Success? ==>
      forall i :: 0 <= i < |listing.value| && Retained(listing.value[i]) ==> RevOf(listing.value[i]) <= r.value
    ensures listing.Success? && (exists i :: 0 <= i < |listing.value| && Retained(listing.value[i])) ==>
      exists i :: 0 <= i < |listing.value| && Retained(listing.value[i]) && RevOf(listing.value[i]) == r.value
  {
    match GetLatest(listing)
    case Failure(e) => Failure(e)
    case Success(name) =>
      if |name| == 0 then Success(0)
      else match GetRev(name)
        case None => Failure("bad backup name: " + name)
        case Some(rev) => Success(rev)
  }

  // ------------------------------------------------------------------
  // Choosing the member to snapshot

  /** `etcdutil.Member`: the member a snapshot is taken from; `secureClient`
      says whether it is dialled with TLS. */
  datatype Member = Member(name: string, namespace: string, secureClient: bool)

  /** Asking one pod's member for its revision: no client could be created,
      the read failed, or the answer's header carried a revision. */
  datatype Probe = DialFailed | ReadFailed | Answered(rev: int64)

  /** A listed pod with the outcome of probing its member. */
  datatype Candidate = Candidate(pod: Pod, probe: Probe)

  function MemberOf(pod: Pod, secure: bool): Member {
    Member(pod.name, pod.namespace, secure)
  }

  /** The greatest revision any candidate answered with; 0 when no candidate
      answered with more. */
  function MaxAnsweredRev(cands: seq<Candidate>): (m: int64)
    ensures m >= 0
    ensures forall i :: 0 <= i < |cands| && cands[i].probe.Answered? ==> cands[i].probe.rev <= m
    ensures m == 0 || exists i :: 0 <= i < |cands| && cands[i].probe == Answered(m)
  {
    if |cands| == 0 then 0
    else
      var m := MaxAnsweredRev(cands[..|cands| - 1]);
      var p := cands[|cands| - 1].probe;
      if p.Answered? && p.rev > m then p.rev else m
  }

  /** Candidate `k` answered `rev`, and every earlier answer was below it. */
  predicate FirstWithRev(cands: seq<Candidate>, k: int, rev: int64) {
    && 0 <= k < |cands| && cands[k].probe == Answered(rev)
    && forall j :: 0 <= j < k && cands[j].probe.Answered? ==> cands[j].probe.rev < rev
  }

  /** The first candidate that answered `rev`. */
  function FirstAnswering(cands: seq<Candidate>, rev: int64): (k: Option<nat>)
    ensures k.Some? ==> k.value < |cands| && cands[k.value].probe == Answered(rev)
    ensures k.Some? ==> forall j :: 0 <= j < k.value ==> cands[j].probe != Answered(rev)
    ensures k.None? ==> forall j :: 0 <= j < |cands| ==> cands[j].probe != Answered(rev)
  {
    if |cands| == 0 then None
    else if cands[0].probe == Answered(rev) then Some(0)
    else match FirstAnswering(cands[1..], rev)
      case None => None
      case Some(k) => Some(k + 1)
  }

  /** The member `getMemberWithMaxRev` picks, stated without its loop: none
      when no candidate answered above 0, otherwise the first candidate that
      answered the greatest revision. */
  function SelectMember(cands: seq<Candidate>, secure: bool): (r: Option<Member>)
    ensures r.None? <==> MaxAnsweredRev(cands) == 0
    ensures r.Some? ==> exists k :: FirstWithRev(cands, k, MaxAnsweredRev(cands)) &&
                                  r.value == MemberOf(cands[k].pod, secure)
  {
    var m := MaxAnsweredRev(cands);
    if m == 0 then None
    else match FirstAnswering(cands, m)
      case None => None
      case Some(k) =>
        assert FirstWithRev(cands, k, m);
        Some(MemberOf(cands[k].pod, secure))
  }

  /** `getMemberWithMaxRev`: probe the candidates in order, skip those that
      cannot be reached or do not answer, and keep the member whose revision
      is strictly greater than the best so far, starting from 0. */
  method GetMemberWithMaxRev(cands: seq<Candidate>, secure: bool) returns (member: Option<Member>, maxRev: int64)
    ensures maxRev >= 0
    ensures forall i :: 0 <= i < |cands| && cands[i].probe.Answered? ==> cands[i].probe.rev <= maxRev
    ensures member.None? <==> maxRev == 0
    ensures member.Some? ==> exists k :: FirstWithRev(cands, k, maxRev) && member.value == MemberOf(cands[k].pod, secure)
    ensures maxRev == MaxAnsweredRev(cands) && member == SelectMember(cands, secure)
  {
    member := None;
    maxRev := 0;
    ghost var best := 0;
    for i := 0 to |cands|
      invariant maxRev == MaxAnsweredRev(cands[..i])
      invariant member.None? <==> maxRev == 0
      invariant member.Some? ==> best < i && FirstWithRev(cands, best, maxRev) &&
                                 member.value == MemberOf(cands[best].pod, secure)
    {
      assert cands[..i + 1][..i] == cands[..i];
      match cands[i].probe {
        case Answered(rev) =>
          if rev > maxRev {
            forall j | 0 <= j < i && cands[j].probe.Answered?
              ensures cands[j].probe.rev < rev
            {
              assert cands[..i][j] == cands[j];
            }
            maxRev := rev;
            member := Some(MemberOf(cands[i].pod, secure));
            best := i;
          }
        case _ =>
      }
    }
    assert cands[..|cands|] == cands;
    SelectFirstMax(cands, secure);
  }

  /** The first candidate answering the greatest revision is unique. */
  lemma {:induction false} SelectFirstMax(cands: seq<Candidate>, secure: bool)
    ensures forall k :: FirstWithRev(cands, k, MaxAnsweredRev(cands)) && MaxAnsweredRev(cands) > 0 ==>
      SelectMember(cands, secure) == Some(MemberOf(cands[k].pod, secure))
  {
    var m := MaxAnsweredRev(cands);
    forall k | FirstWithRev(cands, k, m) && m > 0
      ensures SelectMember(cands, secure) == Some(MemberOf(cands[k].pod, secure))
    {
      var f := FirstAnswering(cands, m);
      assert f == Some(k);
    }
  }

  // ------------------------------------------------------------------
  // Writing one snapshot

  /** How the steps of `writeSnap` turn out: creating the client, the status
      call (whose answer carries the member's etcd version), opening the
      snapshot stream, and the save. */
  datatype WriteEnv = WriteEnv(
    dialErr: Option<string>, status: Result<string>, snapshotErr: Option<string>, save: SaveEnv)

  /** The error of `writeSnap`, the steps of its save, and the member whose
      snapshot stream was opened, if it got that far. */
  datatype WriteResult = WriteResult(err: Option<string>, events: seq<Event>, source: Option<Member>)

  /** `writeSnap`: dial the member, read its version, open a snapshot stream
      from it and save it under the key for `rev`. A failure before the save
      stages nothing, and each such step reports its own error. */
  function WriteSnap(s: Sidecar, m: Member, rev: int64, env: WriteEnv): (r: WriteResult)
    ensures r.err.None? <==> && env.dialErr.None? && env.status.Success? && env.snapshotErr.None?
                             && Save(s.dir, env.status.value, rev, env.save).err.None?
    ensures r.err.None? ==> env.status.Success? && Uploaded(r.events) == {MakeBackupName(env.status.value, rev)}
    ensures r.err.Some? ==> Uploaded(r.events) == {}
    ensures r.events != [] ==> env.status.Success? && r.events == Save(s.dir, env.status.value, rev, env.save).events
    ensures env.dialErr.Some? ==>
      r == WriteResult(Some("failed to create etcd client (" + env.dialErr.value + ")"), [], None)
    ensures env.dialErr.None? && env.status.Failure? ==> r == WriteResult(Some(env.status.error), [], None)
    ensures env.dialErr.None? && env.status.Success? && env.snapshotErr.Some? ==>
      r == WriteResult(Some("failed to receive snapshot (" + env.snapshotErr.value + ")"), [], None)
    ensures r.source.Some? <==> env.dialErr.None? && env.status.Success? && env.snapshotErr.None?
    ensures r.source.Some? ==>
      && r.source.value == m
      && r.err == Save(s.dir, env.status.value, rev, env.save).err
      && r.events == Save(s.dir, env.status.value, rev, env.save).events
    ensures AtMostOnePut(r.events)
  {
    if env.dialErr.Some? then WriteResult(Some("failed to create etcd client (" + env.dialErr.value + ")"), [], None)
    else if env.status.Failure? then WriteResult(Some(env.status.error), [], None)
    else if env.snapshotErr.Some? then WriteResult(Some("failed to receive snapshot (" + env.snapshotErr.value + ")"), [], None)
    else
      var saved := Save(s.dir, env.status.value, rev, env.save);
      WriteResult(saved.err, saved.events, Some(m))
  }

  // ------------------------------------------------------------------
  // One tick of the scheduler

  /** What one tick sees: the listed pods of the cluster, each with the
      outcome of probing it, and how the write would go. */
  datatype TickEnv = TickEnv(pods: Result<seq<Candidate>>, write: WriteEnv)

  /** The new watermark, the error of the tick, the steps of its write, and
      the member a snapshot was read from, if any. */
  datatype TickResult = TickResult(rev: int64, err: Option<string>, events: seq<Event>, source: Option<Member>)

  /** The candidates whose pod is running, each as often as listed, in
      listing order (`RunningCandidatesAppend`). */
  function RunningCandidates(cands: seq<Candidate>): (r: seq<Candidate>)
    ensures |r| <= |cands|
    ensures forall c :: c in r <==> c in cands && c.pod.phase == Running
    ensures forall c {:trigger multiset(r)[c]} :: multiset(r)[c] == if c.pod.phase == Running then multiset(cands)[c] else 0
  {
    if |cands| == 0 then []
    else
      assert cands == [cands[0]] + cands[1..];
      (if cands[0].pod.phase == Running then [cands[0]] else []) + RunningCandidates(cands[1..])
  }

  /** Filtering the running pods keeps their relative order: the running pods
      of a concatenated listing are those of each part, one after the other. */
  lemma {:induction false} RunningCandidatesAppend(a: seq<Candidate>, b: seq<Candidate>)
    ensures RunningCandidates(a + b) == RunningCandidates(a) + RunningCandidates(b)
    decreases |a|
  {
    if |a| == 0 {
      assert a + b == b;
    } else {
      var head := if a[0].pod.phase == Running then [a[0]] else [];
      assert (a + b)[0] == a[0] && (a + b)[1..] == a[1..] + b;
      assert RunningCandidates(a) == head + RunningCandidates(a[1..]);
      assert RunningCandidates(a + b) == head + RunningCandidates(a[1..] + b);
      RunningCandidatesAppend(a[1..], b);
    }
  }

  /** The revision a tick selects among the running pods. */
  function SelectedRev(pods: seq<Candidate>): int64 {
    MaxAnsweredRev(RunningCandidates(pods))
  }

  /** `saveSnap`: list the pods, keep the running ones, pick the member with
      the greatest revision, and write a snapshot when that revision is newer
      than `lastSnapRev`. The result is the watermark for the next tick. */
  function SaveSnap(s: Sidecar, lastSnapRev: int64, env: TickEnv): (r: TickResult)
    ensures env.pods.Failure? ==> r == TickResult(lastSnapRev, Some(env.pods.error), [], None)
    ensures env.pods.Success? && RunningCandidates(env.pods.value) == [] ==>
      r == TickResult(lastSnapRev, Some("no running etcd pods found"), [], None)
    ensures env.pods.Success? && RunningCandidates(env.pods.value) != [] && SelectedRev(env.pods.value) == 0 ==>
      r == TickResult(lastSnapRev, Some("no reachable member"), [], None)
    ensures env.pods.Success? && 0 < SelectedRev(env.pods.value) <= lastSnapRev ==>
      r == TickResult(lastSnapRev, None, [], None)
    ensures lastSnapRev <= r.rev
    ensures r.events != [] ==> env.pods.Success? && SelectedRev(env.pods.value) > lastSnapRev
    ensures r.rev != lastSnapRev ==> env.pods.Success? && r.rev == SelectedRev(env.pods.value) && r.err.None?
    ensures Uploaded(r.events) != {} <==> r.rev != lastSnapRev
    ensures r.rev != lastSnapRev ==>
      env.write.status.Success? && Uploaded(r.events) == {MakeBackupName(env.write.status.value, r.rev)}
    ensures env.pods.Success? && 0 < SelectedRev(env.pods.value) && lastSnapRev < SelectedRev(env.pods.value) ==>
      var w := WriteSnap(s, SelectMember(RunningCandidates(env.pods.value), false).value,
                         SelectedRev(env.pods.value), env.write);
      && r.events == w.events
      && r.source == w.source
      && (w.err.None? ==> r == TickResult(SelectedRev(env.pods.value), None, w.events, w.source))
      && (w.err.Some? ==> r.rev == lastSnapRev && r.err == Some("write snapshot failed: " + w.err.value))
    ensures r.source.Some? ==> env.pods.Success? && r.source == SelectMember(RunningCandidates(env.pods.value), false)
    ensures r.rev != lastSnapRev ==> r.source.Some?
    ensures AtMostOnePut(r.events)
  {
    match env.pods
    case Failure(e) => TickResult(lastSnapRev, Some(e), [], None)
    case Success(listed) =>
      var pods := RunningCandidates(listed);
      if |pods| == 0 then TickResult(lastSnapRev, Some("no running etcd pods found"), [], None)
      else
        var rev := MaxAnsweredRev(pods);
        match SelectMember(pods, false)
        case None => TickResult(lastSnapRev, Some("no reachable member"), [], None)
        case Some(member) =>
          if rev <= lastSnapRev then TickResult(lastSnapRev, None, [], None)
          else
            var w := WriteSnap(s, member, rev, env.write);
            if w.err.Some? then TickResult(lastSnapRev, Some("write snapshot failed: " + w.err.value), w.events, w.source)
            else TickResult(rev, None, w.events, w.source)
  }

  /** The watermark before each tick and after the last one: `seed`, then
      each tick's `saveSnap` result handed on to the next tick. */
  function Watermarks(s: Sidecar, seed: int64, ticks: seq<TickEnv>): (marks: seq<int64>)
    ensures |marks| == |ticks| + 1 && marks[0] == seed
    decreases |ticks|
  {
    if |ticks| == 0 then [seed]
    else
      var before := Watermarks(s, seed, ticks[..|ticks| - 1]);
      before + [SaveSnap(s, before[|before| - 1], ticks[|ticks| - 1]).rev]
  }

  /** Tick `i` starts from watermark `i` and leaves watermark `i + 1`. */
  lemma {:induction false} WatermarksStep(s: Sidecar, seed: int64, ticks: seq<TickEnv>, i: nat)
    requires i < |ticks|
    ensures Watermarks(s, seed, ticks)[i + 1] == SaveSnap(s, Watermarks(s, seed, ticks)[i], ticks[i]).rev
    decreases |ticks|
  {
    var prefix := ticks[..|ticks| - 1];
    if i < |ticks| - 1 {
      WatermarksStep(s, seed, prefix, i);
      assert prefix[i] == ticks[i];
    }
  }

  /** The watermark never decreases from one tick to any later one. */
  lemma {:induction false} WatermarksNeverDecrease(s: Sidecar, seed: int64, ticks: seq<TickEnv>, i: nat, j: nat)
    requires i <= j <= |ticks|
    ensures Watermarks(s, seed, ticks)[i] <= Watermarks(s, seed, ticks)[j]
    decreases |ticks|
  {
    if i < j {
      var prefix := ticks[..|ticks| - 1];
      var before := Watermarks(s, seed, prefix);
      if j < |ticks| {
        WatermarksNeverDecrease(s, seed, prefix, i, j);
      } else {
        WatermarksNeverDecrease(s, seed, prefix, i, j - 1);
      }
    }
  }

  /** `Run`: the tick interval, and the watermarks of the ticks seeded with
      the latest stored revision. A failed listing at start-up is fatal. */
  method Run(s: Sidecar, listing: Result<seq<string>>, ticks: seq<TickEnv>)
    returns (interval: int, marks: seq<int64>, fatal: Option<string>)
    ensures interval == IntervalSeconds(s.spec)
    ensures fatal.Some? <==> listing.Failure?
    ensures fatal.Some? ==> marks == []
    ensures fatal.None? ==> marks == Watermarks(s, GetLatestBackupRev(listing).value, ticks)
  {
    interval := IntervalSeconds(s.spec);
    var seed := GetLatestBackupRev(listing);
    if seed.Failure? {
      return interval, [], Some(seed.error);
    }
    fatal := None;
    var last := seed.value;
    marks := [last];
    for t := 0 to |ticks|
      invariant marks == Watermarks(s, seed.value, ticks[..t]) && last == marks[t]
    {
      assert ticks[..t + 1][..t] == ticks[..t];
      last := SaveSnap(s, last, ticks[t]).rev;
      marks := marks + [last];
    }
    assert ticks[..|ticks|] == ticks;
  }
}

=== FILE: backup_name.dfy ===
/** The object key under which one snapshot is stored:
    `<version>_<revision as 16 lower-case hex digits>_etcd.backup`. */
module BackupName {
  import opened Wrappers
  import opened Ints
  import opened Strings
  import opened Hex

  /** Every stored object whose name ends with this is taken for a backup. */
  const BackupFilenameSuffix: string := "etcd.backup"

  /** `isBackup`: the name ends with the backup suffix. */
  predicate IsBackup(name: string) {
    HasSuffix(name, BackupFilenameSuffix)
  }

  /** `makeBackupName`: the key for a snapshot of software version `ver` at revision `rev`. */
  function MakeBackupName(ver: string, rev: int64): (name: string)
    ensures IsBackup(name)
    ensures |ver| < |name| && name[..|ver|] == ver && name[|ver|] == '_'
  {
    var name := ver + "_" + FormatHex16(rev) + "_" + BackupFilenameSuffix;
    assert name[|name| - |BackupFilenameSuffix|..] == BackupFilenameSuffix;
    assert name[..|ver|] == ver;
    name
  }

  /** `i` and `j` are the positions of the first and the second `'_'` of `name`. */
  predicate FirstTwoSeparators(name: string, i: nat, j: nat) {
    && i < j < |name|
    && name[i] == '_' && name[j] == '_'
    && '_' !in name[..i] && '_' !in name[i + 1..j]
  }

  /** `name` has at least two `'_'`. */
  predicate HasTwoSeparators(name: string) {
    exists i, j :: 0 <= i < j < |name| && name[i] == '_' && name[j] == '_'
  }

  /** `getRev`: split the name at its first two `'_'` into three parts and read
      the middle one with `strconv.ParseInt(_, 16, 64)`. */
  function GetRev(name: string): Option<int64>
  {
    var parts := SplitN(name, '_', 3);
    if |parts| != 3 then None else ParseInt64(parts[1])
  }

  /** A name with at least two separators splits into three parts: the text
      before the first, between the first two, and after the second. */
  lemma {:induction false} SplitThree(name: string) returns (i: nat, j: nat)
    requires |SplitN(name, '_', 3)| == 3
    ensures FirstTwoSeparators(name, i, j)
    ensures SplitN(name, '_', 3)[1] == name[i + 1..j]
  {
    var parts := SplitN(name, '_', 3);
    SplitNJoin(name, '_', 3);
    SplitNSeparators(name, '_', 3);
    JoinCons(parts[0], parts[1..], '_');
    JoinCons(parts[1], parts[2..], '_');
    assert parts[1..][1..] == parts[2..];
    assert JoinWith(parts[2..], '_') == parts[2];
    i := |parts[0]|;
    j := i + 1 + |parts[1]|;
    assert name == parts[0] + "_" + parts[1] + "_" + parts[2];
    assert name[..i] == parts[0];
    assert name[i + 1..j] == parts[1];
  }

  /** What `getRev` reads is exactly the text between the first two separators. */
  lemma {:induction false} GetRevBetweenSeparators(name: string, i: nat, j: nat)
    requires FirstTwoSeparators(name, i, j)
    ensures GetRev(name) == ParseInt64(name[i + 1..j])
  {
    IndexOfFirst(name, '_', i);
    var rest := name[i + 1..];
    var k := j - i - 1;
    assert rest[..k] == name[i + 1..j];
    IndexOfFirst(rest, '_', k);
    assert SplitN(rest, '_', 2) == [rest[..k]] + SplitN(rest[k + 1..], '_', 1);
    assert SplitN(name, '_', 3) == [name[..i]] + SplitN(rest, '_', 2);
  }

  /** A name with fewer than two separators has no revision. */
  lemma {:induction false} GetRevNeedsTwoSeparators(name: string)
    requires !HasTwoSeparators(name)
    ensures GetRev(name).None?
  {
    var parts := SplitN(name, '_', 3);
    if |parts| == 3 {
      var i, j := SplitThree(name);
      assert false;
    }
  }

  /** The revision is recovered from the key when the version has no `'_'`. */
  lemma {:induction false} RoundTrip(ver: string, rev: int64)
    requires '_' !in ver
    ensures GetRev(MakeBackupName(ver, rev)) == Some(rev)
  {
    var h := FormatHex16(rev);
    var name := MakeBackupName(ver, rev);
    var i := |ver|;
    var j := |ver| + 1 + |h|;
    FormatHex16NoUnderscore(rev);
    assert name[..i] == ver;
    assert name[i + 1..j] == h;
    assert FirstTwoSeparators(name, i, j);
    GetRevBetweenSeparators(name, i, j);
    ParseFormatRoundTrip(rev);
  }

  lemma {:induction false} NameFields(ver: string, rev: int64)
    ensures MakeBackupName(ver, rev) == (ver + "_") + (FormatHex16(rev) + ("_" + BackupFilenameSuffix))
  {
  }

  /** For one version, keys of non-negative revisions sort as text exactly as
      the revisions sort as numbers. */
  lemma {:induction false} NameOrderIsRevisionOrder(ver: string, a: int64, b: int64)
    requires 0 <= a && 0 <= b
    ensures LexLess(MakeBackupName(ver, a), MakeBackupName(ver, b)) <==> a < b
  {
    var tail := "_" + BackupFilenameSuffix;
    var p := ver + "_";
    NameFields(ver, a);
    NameFields(ver, b);
    LexLessCommonPrefix(p, FormatHex16(a) + tail, FormatHex16(b) + tail);
    FormatHex16Shape(a);
    FormatHex16Shape(b);
    if a < b {
      FixedWidthOrder(FormatHex16(a), FormatHex16(b), tail, tail);
    } else if a == b {
      LexLessIrreflexive(MakeBackupName(ver, a));
    } else {
      FixedWidthOrder(FormatHex16(b), FormatHex16(a), tail, tail);
      LexLessAsymmetric(FormatHex16(b) + tail, FormatHex16(a) + tail);
    }
  }
}

=== FILE: hex.dfy ===
/** Base-16 text for revisions: what Go's `fmt` writes for the verb `%016x`
    and what `strconv.ParseInt(s, 16, 64)` accepts. */
module Hex {
  import opened Wrappers
  import opened Ints
  import opened Strings

  /** `16` raised to `k`. */
  function Pow16(k: nat): (r: nat)
    ensures r >= 1
  {
    if k == 0 then 1 else 16 * Pow16(k - 1)
  }

  /** The lower-case digit `fmt` writes for `0 <= d < 16`. */
  function DigitChar(d: nat): (c: char)
    requires d < 16
    ensures IsLowerHexDigit(c)
  {
    if d < 10 then ('0' as int + d) as char else ('a' as int + d - 10) as char
  }

  predicate IsLowerHexDigit(c: char) {
    '0' <= c <= '9' || 'a' <= c <= 'f'
  }

  predicate AllLowerHex(s: string) {
    forall i :: 0 <= i < |s| ==> IsLowerHexDigit(s[i])
  }

  /** The value `strconv` gives a character in base 16: decimal digits and
      either case of the letters `a` to `f`; anything else is a syntax error. */
  function DigitValue(c: char): (r: Option<nat>)
    ensures r.Some? ==> r.value < 16
    ensures IsLowerHexDigit(c) ==> r.Some? && DigitChar(r.value) == c
  {
    if '0' <= c <= '9' then Some(c as int - '0' as int)
    else if 'a' <= c <= 'f' then Some(c as int - 'a' as int + 10)
    else if 'A' <= c <= 'F' then Some(c as int - 'A' as int + 10)
    else None
  }

  /** Among lower-case digits, character order is digit order. */
  lemma {:induction false} DigitOrder(a: char, b: char)
    requires IsLowerHexDigit(a) && IsLowerHexDigit(b)
    ensures a < b <==> DigitValue(a).value < DigitValue(b).value
  {
  }

  predicate AllDigits(s: string) {
    forall i :: 0 <= i < |s| ==> DigitValue(s[i]).Some?
  }

  /** The number a digit string denotes, accumulated most significant digit first. */
  function Value(s: string): nat
    requires AllDigits(s)
  {
    if |s| == 0 then 0 else 16 * Value(s[..|s| - 1]) + DigitValue(s[|s| - 1]).value
  }

  /** Shortest lower-case base-16 text for `n` (what `%x` writes for a non-negative value). */
  function NatToHex(n: nat): (r: string)
    ensures |r| >= 1
    ensures AllLowerHex(r)
    decreases n
  {
    if n < 16 then [DigitChar(n)] else NatToHex(n / 16) + [DigitChar(n % 16)]
  }

  function Zeros(k: nat): (r: string)
    ensures |r| == k
    ensures forall i :: 0 <= i < k ==> r[i] == '0'
  {
    seq(k, _ => '0')
  }

  /** `s` preceded by as many `'0'` as it takes to reach `width` characters. */
  function PadZeros(s: string, width: nat): (r: string)
    ensures |r| == if |s| >= width then |s| else width
  {
    if |s| >= width then s else Zeros(width - |s|) + s
  }

  /** The field width of the revision in a backup name. */
  const RevWidth: nat := 16

  /** Go's `fmt.Sprintf("%016x", n)` for an `int64`: the magnitude in lower-case
      base 16, zero-padded on the left so that sign and digits together fill
      at least sixteen characters; a negative value carries a leading `'-'`
      and at least fifteen digits, more when its magnitude needs them. */
  function FormatHex16(n: int64): string
  {
    if n < 0 then "-" + PadZeros(NatToHex(-(n as int)), RevWidth - 1)
    else PadZeros(NatToHex(n), RevWidth)
  }

  /** `strconv.ParseInt(s, 16, 64)`: an optional sign followed by at least one
      base-16 digit, whose value must fit an `int64`. Every failure (syntax
      error or range error) is `None`. */
  function ParseInt64(s: string): Option<int64>
  {
    if |s| == 0 then None
    else
      var neg := s[0] == '-';
      var digits := if s[0] == '+' || s[0] == '-' then s[1..] else s;
      if |digits| == 0 || !AllDigits(digits) then None
      else
        var u: int := Value(digits);
        if neg then (if u <= -INT64_MIN then Some(-u) else None)
        else (if u <= INT64_MAX then Some(u) else None)
  }

  lemma {:induction false} LowerHexAreDigits(s: string)
    requires AllLowerHex(s)
    ensures AllDigits(s)
  {
    forall i | 0 <= i < |s| ensures DigitValue(s[i]).Some? {
    }
  }

  /** Appending a digit multiplies by sixteen and adds the digit. */
  lemma {:induction false} ValueAppend(s: string, d: nat)
    requires AllDigits(s) && d < 16
    ensures AllDigits(s + [DigitChar(d)])
    ensures Value(s + [DigitChar(d)]) == 16 * Value(s) + d
  {
    var t := s + [DigitChar(d)];
    assert t[..|t| - 1] == s;
  }

  /** The shortest text reads back as the number it was written from. */
  lemma {:induction false} NatToHexValue(n: nat)
    ensures AllDigits(NatToHex(n))
    ensures Value(NatToHex(n)) == n
    decreases n
  {
    LowerHexAreDigits(NatToHex(n));
    if n < 16 {
      assert NatToHex(n)[..0] == [];
    } else {
      NatToHexValue(n / 16);
      ValueAppend(NatToHex(n / 16), n % 16);
    }
  }

  /** A number below `16^k` needs at most `k` digits. */
  lemma {:induction false} NatToHexLength(n: nat, k: nat)
    requires 1 <= k && n < Pow16(k)
    ensures |NatToHex(n)| <= k
    decreases n
  {
    if n >= 16 {
      assert k >= 2;
      assert n / 16 < Pow16(k - 1);
      NatToHexLength(n / 16, k - 1);
    }
  }

  /** Leading zeros do not change the value. */
  lemma {:induction false} ValueLeadingZeros(k: nat, s: string)
    requires AllDigits(s)
    ensures AllDigits(Zeros(k) + s)
    ensures Value(Zeros(k) + s) == Value(s)
    decreases |s|, k
  {
    var z := Zeros(k) + s;
    assert forall i :: 0 <= i < |z| ==> z[i] == (if i < k then '0' else s[i - k]);
    if |s| == 0 {
      if k > 0 {
        assert z[..|z| - 1] == Zeros(k - 1) + s;
        ValueLeadingZeros(k - 1, s);
      }
    } else {
      var t := s[..|s| - 1];
      assert z[..|z| - 1] == Zeros(k) + t;
      ValueLeadingZeros(k, t);
    }
  }

  /** The same value, read from the front: the first digit weighs `16^(|s|-1)`. */
  lemma {:induction false} ValueFront(s: string)
    requires |s| >= 1 && AllDigits(s)
    ensures Value(s) == DigitValue(s[0]).value * Pow16(|s| - 1) + Value(s[1..])
    decreases |s|
  {
    if |s| == 1 {
      assert s[..0] == [] && s[1..] == [];
    } else {
      var t := s[..|s| - 1];
      var d0 := DigitValue(s[0]).value;
      ValueFront(t);
      assert t[1..] == s[1..][..|s| - 2];
      assert t[0] == s[0];
      assert Value(s[1..]) == 16 * Value(t[1..]) + DigitValue(s[|s| - 1]).value;
      ShiftDigit(d0, Pow16(|s| - 2), Value(t[1..]), DigitValue(s[|s| - 1]).value);
    }
  }

  lemma {:induction false} ShiftDigit(d: nat, p: nat, rest: nat, last: nat)
    ensures 16 * (d * p + rest) + last == d * (16 * p) + (16 * rest + last)
  {
  }

  /** A larger leading digit outweighs anything the remaining digits can add. */
  lemma {:induction false} LeadingDigitDominates(dx: nat, dy: nat, p: nat, rx: nat, ry: nat)
    requires dx > dy && ry < p
    ensures dx * p + rx > dy * p + ry
  {
    assert dx * p >= (dy + 1) * p;
  }

  /** `k` digits denote a number below `16^k`. */
  lemma {:induction false} ValueBound(s: string)
    requires AllDigits(s)
    ensures Value(s) < Pow16(|s|)
    decreases |s|
  {
    if |s| > 0 {
      ValueBound(s[..|s| - 1]);
    }
  }

  /** For digit fields of the same width, the field with the smaller value
      sorts first as text, whatever follows each field. */
  lemma {:induction false} FixedWidthOrder(x: string, y: string, t: string, u: string)
    requires |x| == |y|
    requires AllLowerHex(x) && AllLowerHex(y)
    requires AllDigits(x) && AllDigits(y)
    requires Value(x) < Value(y)
    ensures LexLess(x + t, y + u)
    decreases |x|
  {
    if |x| == 0 {
      assert false;
    }
    var p := Pow16(|x| - 1);
    var dx := DigitValue(x[0]).value;
    var dy := DigitValue(y[0]).value;
    ValueFront(x);
    ValueFront(y);
    assert (x + t)[0] == x[0] && (y + u)[0] == y[0];
    if x[0] == y[0] {
      assert (x + t)[1..] == x[1..] + t;
      assert (y + u)[1..] == y[1..] + u;
      FixedWidthOrder(x[1..], y[1..], t, u);
    } else {
      DigitOrder(x[0], y[0]);
      if dx > dy {
        ValueBound(y[1..]);
        LeadingDigitDominates(dx, dy, p, Value(x[1..]), Value(y[1..]));
        assert false;
      }
    }
  }

  lemma Pow16Of16()
    ensures Pow16(16) == 0x1_0000_0000_0000_0000
  {
    assert Pow16(1) == 0x10;
    assert Pow16(2) == 0x100;
    assert Pow16(3) == 0x1000;
    assert Pow16(4) == 0x1_0000;
    assert Pow16(5) == 0x10_0000;
    assert Pow16(6) == 0x100_0000;
    assert Pow16(7) == 0x1000_0000;
    assert Pow16(8) == 0x1_0000_0000;
    assert Pow16(9) == 0x10_0000_0000;
    assert Pow16(10) == 0x100_0000_0000;
    assert Pow16(11) == 0x1000_0000_0000;
    assert Pow16(12) == 0x1_0000_0000_0000;
    assert Pow16(13) == 0x10_0000_0000_0000;
    assert Pow16(14) == 0x100_0000_0000_0000;
    assert Pow16(15) == 0x1000_0000_0000_0000;
  }

  /** Zero-padding keeps the text all lower-case digits, keeps its value, and
      starts it with a digit. */
  lemma {:induction false} PadZerosValue(h: string, w: nat)
    requires |h| >= 1 && AllLowerHex(h)
    ensures AllLowerHex(PadZeros(h, w))
    ensures AllDigits(PadZeros(h, w)) && AllDigits(h)
    ensures Value(PadZeros(h, w)) == Value(h)
  {
    LowerHexAreDigits(h);
    var p := PadZeros(h, w);
    if |h| < w {
      ValueLeadingZeros(w - |h|, h);
      assert forall i :: 0 <= i < |p| ==> p[i] == (if i < w - |h| then '0' else h[i - (w - |h|)]);
    }
    LowerHexAreDigits(p);
  }

  /** The revision field is exactly sixteen lower-case digits for every non-negative revision. */
  lemma {:induction false} FormatHex16Shape(n: int64)
    requires n >= 0
    ensures |FormatHex16(n)| == RevWidth
    ensures AllLowerHex(FormatHex16(n))
    ensures AllDigits(FormatHex16(n)) && Value(FormatHex16(n)) == n
  {
    Pow16Of16();
    NatToHexLength(n, 16);
    NatToHexValue(n);
    PadZerosValue(NatToHex(n), RevWidth);
  }

  /** The revision field never contains a `'_'`, so it cannot be mistaken for a separator. */
  lemma {:induction false} FormatHex16NoUnderscore(n: int64)
    ensures '_' !in FormatHex16(n)
  {
    var h := NatToHex(if n < 0 then -(n as int) else n);
    var w := if n < 0 then RevWidth - 1 else RevWidth;
    PadZerosValue(h, w);
    var p := PadZeros(h, w);
    assert forall i :: 0 <= i < |p| ==> p[i] != '_';
    if n < 0 {
      assert FormatHex16(n) == "-" + p;
    }
  }

  /** A revision below sixteen is written as fifteen zeros and its digit. */
  lemma {:induction false} SingleDigitField(d: int64)
    requires 0 <= d < 16
    ensures FormatHex16(d) == Zeros(15) + [DigitChar(d)]
  {
  }

  lemma FifteenZeros()
    ensures Zeros(15) == "000000000000000"
  {
  }

  /** Unsigned digits parse to their value when it fits. */
  lemma {:induction false} ParseUnsigned(p: string)
    requires |p| >= 1 && AllLowerHex(p) && AllDigits(p) && Value(p) <= INT64_MAX
    ensures ParseInt64(p) == Some(Value(p) as int64)
  {
    assert IsLowerHexDigit(p[0]);
  }

  /** Digits after a minus sign parse to the negated value when it fits. */
  lemma {:induction false} ParseNegative(p: string)
    requires |p| >= 1 && AllLowerHex(p) && AllDigits(p) && Value(p) <= -INT64_MIN
    ensures ParseInt64("-" + p) == Some((-(Value(p) as int)) as int64)
  {
    assert ("-" + p)[0] == '-';
    assert ("-" + p)[1..] == p;
  }

  /** Parsing reads back every `int64` that was written, negative ones included. */
  lemma {:induction false} ParseFormatRoundTrip(n: int64)
    ensures ParseInt64(FormatHex16(n)) == Some(n)
  {
    var m: nat := if n < 0 then -(n as int) else n;
    var w := if n < 0 then RevWidth - 1 else RevWidth;
    var h := NatToHex(m);
    NatToHexValue(m);
    PadZerosValue(h, w);
    if n < 0 {
      ParseNegative(PadZeros(h, w));
    } else {
      ParseUnsigned(PadZeros(h, w));
    }
  }
}

=== FILE: k8sutil.dfy ===
/** Helpers that build the names, labels and objects of the backup sidecar. */
module K8sUtil {
  import opened Wrappers
  import opened Strings
  import opened Api
  import opened Kube

  const BackupImage: string := "gcr.io/coreos-k8s-scale-testing/etcd-backup-operator:fanmin"
  const BackupSpecEnv: string := "BACKUP_SPEC"
  const EnvOperatorPodNamespace: string := "MY_POD_NAMESPACE"
  const AwsCredentialDir: string := "/root/.aws/"
  const AwsSecretVolName: string := "secret-aws"
  const AwsS3BucketEnv: string := "AWS_S3_BUCKET"
  const BackupPodSelectorAppField: string := "etcd_backup_tool"
  const BackupCommand: string := "/usr/local/bin/etcd-backup"

  /** `PodDNSName`: the pod's IP with every `.` turned into `-`, then its
      namespace, under `.pod`. */
  function PodDNSName(p: Pod): (r: string)
    ensures |r| == |p.podIP| + |p.namespace| + 5
    ensures forall i :: 0 <= i < |p.podIP| ==>
      r[i] == (if p.podIP[i] == '.' then '-' else p.podIP[i])
    ensures '.' !in r[..|p.podIP|]
    ensures r[|p.podIP|] == '.' && r[|p.podIP| + 1..|r| - 4] == p.namespace
    ensures HasSuffix(r, ".pod")
  {
    var r := ReplaceAll(p.podIP, '.', '-') + "." + p.namespace + ".pod";
    assert r[|r| - 4..] == ".pod";
    assert r[|p.podIP| + 1..|r| - 4] == p.namespace;
    r
  }

  /** Pods of one namespace whose IPs hold no `-` (as IPv4 addresses do) get
      distinct DNS names exactly when their IPs differ. */
  lemma {:induction false} PodDNSNameDistinguishesIPs(p: Pod, q: Pod)
    requires p.namespace == q.namespace
    requires '-' !in p.podIP && '-' !in q.podIP
    ensures PodDNSName(p) == PodDNSName(q) <==> p.podIP == q.podIP
  {
    if PodDNSName(p) == PodDNSName(q) {
      assert |p.podIP| == |q.podIP|;
      forall i | 0 <= i < |p.podIP|
        ensures p.podIP[i] == q.podIP[i]
      {
        assert p.podIP[i] != '-' && q.podIP[i] != '-';
      }
    }
  }

  /** `LabelsForCluster`: the labels every pod of the etcd cluster carries. */
  function LabelsForCluster(clusterName: string): (m: map<string, string>)
    ensures m.Keys == {"etcd_cluster", "app"}
    ensures m["etcd_cluster"] == clusterName && m["app"] == "etcd"
  {
    map["etcd_cluster" := clusterName, "app" := "etcd"]
  }

  /** `BackupSidecarLabels`: the labels of the backup sidecar's pods. */
  function BackupSidecarLabels(clusterName: string): (m: map<string, string>)
    ensures m.Keys == {"app", "etcd_cluster"}
    ensures m["app"] == BackupPodSelectorAppField && m["etcd_cluster"] == clusterName
  {
    map["app" := BackupPodSelectorAppField, "etcd_cluster" := clusterName]
  }

  /** The selector `saveSnap` lists etcd pods with never matches a backup
      sidecar pod, whatever cluster either belongs to: the `app` labels differ. */
  lemma {:induction false} ClusterSelectorSkipsSidecars(cluster: string, sidecarCluster: string)
    ensures !Selects(LabelsForCluster(cluster), BackupSidecarLabels(sidecarCluster))
  {
    assert "app" in LabelsForCluster(cluster);
  }

  /** `BackupSidecarName`: the name of a backup's sidecar deployment. */
  function BackupSidecarName(name: string): (r: string)
    ensures |r| == |name| + 15 && r[..|name|] == name && HasSuffix(r, "-backup-sidecar")
  {
    var r := name + "-backup-sidecar";
    assert r[..|name|] == name;
    assert r[|r| - 15..] == "-backup-sidecar";
    r
  }

  /** Different backups get differently named sidecars. */
  lemma {:induction false} BackupSidecarNameInjective(a: string, b: string)
    ensures BackupSidecarName(a) == BackupSidecarName(b) <==> a == b
  {
    if BackupSidecarName(a) == BackupSidecarName(b) {
      assert a == BackupSidecarName(a)[..|a|];
    }
  }

  /** `AddOwnerRefToObject`: the owner references with `r` appended. */
  function AddOwnerRefToObject(o: ObjectMeta, r: OwnerReference): (m: ObjectMeta)
    ensures m.name == o.name && m.labels == o.labels
    ensures |m.ownerReferences| == |o.ownerReferences| + 1
    ensures m.ownerReferences[..|o.ownerReferences|] == o.ownerReferences
    ensures m.ownerReferences[|o.ownerReferences|] == r
  {
    var m := o.(ownerReferences := o.ownerReferences + [r]);
    assert m.ownerReferences[..|o.ownerReferences|] == o.ownerReferences;
    m
  }

  /** `AsOwner`: a controlling owner reference to the backup resource. */
  function AsOwner(eb: EtcdBackup): (r: OwnerReference)
    ensures r.apiVersion == SchemeGroupVersion && r.kind == CRDResourceKind
    ensures r.name == eb.name && r.uid == eb.uid
    ensures r.controller == Some(true)
  {
    OwnerReference(SchemeGroupVersion, CRDResourceKind, eb.name, eb.uid, Some(true))
  }

  /** The mount, volume and environment variable that give the first
      container the AWS credentials and the bucket name. */
  function AwsMount(): VolumeMount { VolumeMount(AwsSecretVolName, AwsCredentialDir) }

  function AwsVolume(ss: S3Source): Volume { Volume(AwsSecretVolName, ss.awsSecret) }

  function BucketEnv(ss: S3Source): EnvVar { EnvVar(AwsS3BucketEnv, Literal(ss.s3Bucket)) }

  /** `AttachS3ToPodSpec`. The source indexes the first container, so a spec
      without containers is outside its domain. */
  function AttachS3ToPodSpec(ps: PodSpec, ss: S3Source): (r: PodSpec)
    requires |ps.containers| >= 1
    ensures r.serviceAccountName == ps.serviceAccountName
    ensures |r.containers| == |ps.containers| && r.containers[1..] == ps.containers[1..]
    ensures r.volumes == ps.volumes + [AwsVolume(ss)]
    ensures var c, c0 := r.containers[0], ps.containers[0];
      && c.name == c0.name && c.image == c0.image && c.command == c0.command
      && c.volumeMounts == c0.volumeMounts + [AwsMount()]
      && c.env == c0.env + [BucketEnv(ss)]
  {
    var c0 := ps.containers[0];
    var c := c0.(volumeMounts := c0.volumeMounts + [AwsMount()], env := c0.env + [BucketEnv(ss)]);
    ps.(containers := [c] + ps.containers[1..], volumes := ps.volumes + [AwsVolume(ss)])
  }

  /** `NewBackupPodTemplate`: one `backup` container running the backup
      binary for the spec's cluster, given the namespace through the pod's
      own metadata and the spec as JSON (`specJson`, the text `json.Marshal`
      produces, which this model does not compute). */
  function NewBackupPodTemplate(account: string, bs: EtcdBackupSpec, specJson: string): (t: PodTemplateSpec)
    ensures t.meta.name == bs.clusterName
    ensures t.meta.labels == BackupSidecarLabels(bs.clusterName)
    ensures t.meta.ownerReferences == []
    ensures t.spec.serviceAccountName == account && t.spec.volumes == []
    ensures |t.spec.containers| == 1
    ensures var c := t.spec.containers[0];
      && c.name == "backup" && c.image == BackupImage
      && c.command == [BackupCommand, "--etcd-cluster=" + bs.clusterName]
      && c.env == [EnvVar(EnvOperatorPodNamespace, FieldRef("metadata.namespace")),
                   EnvVar(BackupSpecEnv, Literal(specJson))]
      && c.volumeMounts == []
  {
    var c := Container("backup", BackupImage, [BackupCommand, "--etcd-cluster=" + bs.clusterName],
      [EnvVar(EnvOperatorPodNamespace, FieldRef("metadata.namespace")), EnvVar(BackupSpecEnv, Literal(specJson))],
      []);
    PodTemplateSpec(ObjectMeta(bs.clusterName, BackupSidecarLabels(bs.clusterName), []),
                    PodSpec(account, [c], []))
  }

  /** `NewBackupDeploymentManifest`: a deployment labelled `dplSel` whose
      selector is the template's own labels, recreated on update and owned by
      `owner`. */
  function NewBackupDeploymentManifest(name: string, dplSel: map<string, string>,
                                       pl: PodTemplateSpec, owner: OwnerReference): (d: Deployment)
    ensures d.meta.name == name && d.meta.labels == dplSel
    ensures d.meta.ownerReferences == [owner]
    ensures d.selector == pl.meta.labels && d.template == pl
    ensures d.strategy == Recreate
    ensures Selects(d.selector, d.template.meta.labels)
  {
    Deployment(AddOwnerRefToObject(ObjectMeta(name, dplSel, []), owner), pl.meta.labels, pl, Recreate)
  }

  /** `makeSidecarDeployment`: the sidecar deployment for backup `b`. The
      source dereferences the spec's S3 source, so `b` must have one. */
  function MakeSidecarDeployment(account: string, b: EtcdBackup, specJson: string): (d: Deployment)
    requires b.spec.s3.Some?
    ensures d.meta.name == BackupSidecarName(b.name)
    ensures d.meta.labels == LabelsForCluster(b.spec.clusterName)
    ensures d.meta.ownerReferences == [AsOwner(b)]
    ensures Selects(d.selector, d.template.meta.labels)
    ensures d.selector == BackupSidecarLabels(b.spec.clusterName)
    ensures |d.template.spec.containers| == 1
    ensures BucketEnv(b.spec.s3.value) in d.template.spec.containers[0].env
    ensures d.template.spec.volumes == [AwsVolume(b.spec.s3.value)]
  {
    var t := NewBackupPodTemplate(account, b.spec, specJson);
    var t' := t.(spec := AttachS3ToPodSpec(t.spec, b.spec.s3.value));
    var d := NewBackupDeploymentManifest(BackupSidecarName(b.name), LabelsForCluster(b.spec.clusterName), t', AsOwner(b));
    assert d.template.spec.containers[0].env[2] == BucketEnv(b.spec.s3.value);
    d
  }
}

=== FILE: kube.dfy ===
/** The few Kubernetes object fields the operator reads or writes, as plain
    records holding sequences and maps. */
module Kube {
  import opened Wrappers

  datatype PodPhase = Pending | Running | Succeeded | Failed | UnknownPhase

  /** A pod: its name and namespace, its phase and its IP address. */
  datatype Pod = Pod(name: string, namespace: string, phase: PodPhase, podIP: string)

  /** A reference from a dependent object to the object that owns it. */
  datatype OwnerReference = OwnerReference(
    apiVersion: string, kind: string, name: string, uid: string, controller: Option<bool>)

  datatype ObjectMeta = ObjectMeta(
    name: string, labels: map<string, string>, ownerReferences: seq<OwnerReference>)

  /** An environment variable holds a literal value or a reference to a field of its pod. */
  datatype EnvValue = Literal(value: string) | FieldRef(fieldPath: string)

  datatype EnvVar = EnvVar(name: string, source: EnvValue)

  datatype VolumeMount = VolumeMount(name: string, mountPath: string)

  /** A volume backed by a secret (the only kind the operator creates). */
  datatype Volume = Volume(name: string, secretName: string)

  datatype Container = Container(
    name: string, image: string, command: seq<string>,
    env: seq<EnvVar>, volumeMounts: seq<VolumeMount>)

  datatype PodSpec = PodSpec(serviceAccountName: string, containers: seq<Container>, volumes: seq<Volume>)

  datatype PodTemplateSpec = PodTemplateSpec(meta: ObjectMeta, spec: PodSpec)

  datatype DeploymentStrategy = Recreate | RollingUpdate

  /** A deployment: its metadata, the labels its selector matches, its pod
      template and its update strategy. */
  datatype Deployment = Deployment(
    meta: ObjectMeta, selector: map<string, string>,
    template: PodTemplateSpec, strategy: DeploymentStrategy)

  /** A label selector given as a set of required labels matches `labels`
      when each required label is present with the same value. */
  predicate Selects(selector: map<string, string>, labels: map<string, string>) {
    forall k :: k in selector ==> k in labels && labels[k] == selector[k]
  }
}

=== FILE: listing.dfy ===
/** Choosing the latest backup from a bucket listing: drop the names that are
    not backups or carry no readable revision, sort the rest by revision, take
    the last. */
module Listing {
  import opened Wrappers
  import opened Ints
  import opened Strings
  import opened Hex
  import opened BackupName

  /** Reads the revision out of a name, or fails. The source always uses
      `getRev`; the filtering and sorting steps below take the reader as a
      parameter and are instantiated with `GetRev` by `FilterAndSortBackups`. */
  type Reader = string -> Option<int64>

  /** A listed name survives filtering: it ends with the backup suffix and its revision reads. */
  predicate Readable(read: Reader, name: string) {
    IsBackup(name) && read(name).Some?
  }

  predicate AllParse(read: Reader, s: seq<string>) {
    forall i :: 0 <= i < |s| ==> read(s[i]).Some?
  }

  /** Revisions never decrease along `s`. */
  predicate SortedBy(read: Reader, s: seq<string>)
    requires AllParse(read, s)
  {
    forall i, j :: 0 <= i < j < |s| ==> read(s[i]).value <= read(s[j]).value
  }

  /** The filtering loop of `filterAndSortBackups`: keeps exactly the readable
      backup names, each as often as it was listed, in listing order
      (`FilterByAppend`). */
  function FilterBy(read: Reader, names: seq<string>): (r: seq<string>)
    ensures forall i :: 0 <= i < |r| ==> Readable(read, r[i])
    ensures forall n {:trigger multiset(r)[n]} :: multiset(r)[n] == if Readable(read, n) then multiset(names)[n] else 0
  {
    if |names| == 0 then []
    else
      var rest := FilterBy(read, names[1..]);
      assert names == [names[0]] + names[1..];
      if Readable(read, names[0]) then [names[0]] + rest else rest
  }

  /** Filtering keeps listing order: the names kept from a concatenated
      listing are those kept from each part, one after the other. */
  lemma {:induction false} FilterByAppend(read: Reader, a: seq<string>, b: seq<string>)
    ensures FilterBy(read, a + b) == FilterBy(read, a) + FilterBy(read, b)
    decreases |a|
  {
    if |a| == 0 {
      assert a + b == b;
    } else {
      var head := if Readable(read, a[0]) then [a[0]] else [];
      assert (a + b)[0] == a[0] && (a + b)[1..] == a[1..] + b;
      assert FilterBy(read, a) == head + FilterBy(read, a[1..]);
      assert FilterBy(read, a + b) == head + FilterBy(read, a[1..] + b);
      FilterByAppend(read, a[1..], b);
    }
  }

  /** The comparison the sort makes: `x` goes before `y` when its revision is smaller. */
  predicate LessBy(read: Reader, x: string, y: string)
    requires read(x).Some? && read(y).Some?
  {
    read(x).value < read(y).value
  }

  /** Places `x` into a list already ordered by revision, ahead of every
      element whose revision is not smaller. */
  function InsertBy(read: Reader, x: string, s: seq<string>): (r: seq<string>)
    requires read(x).Some? && AllParse(read, s) && SortedBy(read, s)
    ensures AllParse(read, r) && SortedBy(read, r)
    ensures multiset(r) == multiset(s) + multiset{x}
    ensures |r| == |s| + 1 && (r[0] == x || (|s| > 0 && r[0] == s[0]))
  {
    if |s| == 0 then [x]
    else if !LessBy(read, s[0], x) then [x] + s
    else
      var rest := InsertBy(read, x, s[1..]);
      assert s == [s[0]] + s[1..];
      [s[0]] + rest
  }

  /** The `sort.Sort` call of `filterAndSortBackups`, comparing with `LessBy`. The library
      sort is not stable; this one is, which is one of the orders it may produce. */
  function SortBy(read: Reader, s: seq<string>): (r: seq<string>)
    requires AllParse(read, s)
    ensures AllParse(read, r) && SortedBy(read, r)
    ensures multiset(r) == multiset(s)
  {
    if |s| == 0 then []
    else
      assert s == [s[0]] + s[1..];
      InsertBy(read, s[0], SortBy(read, s[1..]))
  }

  /** The names of `s` whose revision reads as `v`, in their order in `s`. */
  function WithRev(read: Reader, v: int64, s: seq<string>): seq<string> {
    if |s| == 0 then []
    else (if read(s[0]) == Some(v) then [s[0]] else []) + WithRev(read, v, s[1..])
  }

  lemma {:induction false} WithRevAppend(read: Reader, v: int64, a: seq<string>, b: seq<string>)
    ensures WithRev(read, v, a + b) == WithRev(read, v, a) + WithRev(read, v, b)
    decreases |a|
  {
    if |a| == 0 {
      assert a + b == b;
    } else {
      var head := if read(a[0]) == Some(v) then [a[0]] else [];
      assert (a + b)[0] == a[0] && (a + b)[1..] == a[1..] + b;
      assert WithRev(read, v, a) == head + WithRev(read, v, a[1..]);
      assert WithRev(read, v, a + b) == head + WithRev(read, v, a[1..] + b);
      WithRevAppend(read, v, a[1..], b);
    }
  }

  /** Inserting `x` puts it ahead of the names that share its revision. */
  lemma {:induction false} InsertByKeepsTies(read: Reader, x: string, s: seq<string>, v: int64)
    requires read(x).Some? && AllParse(read, s) && SortedBy(read, s)
    ensures WithRev(read, v, InsertBy(read, x, s)) == WithRev(read, v, [x]) + WithRev(read, v, s)
    decreases |s|
  {
    if |s| > 0 {
      assert s == [s[0]] + s[1..];
      WithRevAppend(read, v, [s[0]], s[1..]);
      if !LessBy(read, s[0], x) {
        WithRevAppend(read, v, [x], s);
      } else {
        var rest := InsertBy(read, x, s[1..]);
        InsertByKeepsTies(read, x, s[1..], v);
        WithRevAppend(read, v, [s[0]], rest);
        assert WithRev(read, v, [s[0]]) == [] || WithRev(read, v, [x]) == [];
      }
    }
  }

  /** The sort is stable: the names of any one revision keep their listed order. */
  lemma {:induction false} SortByStable(read: Reader, s: seq<string>, v: int64)
    requires AllParse(read, s)
    ensures WithRev(read, v, SortBy(read, s)) == WithRev(read, v, s)
    decreases |s|
  {
    if |s| > 0 {
      assert s == [s[0]] + s[1..];
      SortByStable(read, s[1..], v);
      InsertByKeepsTies(read, s[0], SortBy(read, s[1..]), v);
      WithRevAppend(read, v, [s[0]], s[1..]);
    }
  }

  /** Filtering then sorting: the readable names, each as often as listed, by revision. */
  function FilterSortBy(read: Reader, names: seq<string>): (r: seq<string>)
    ensures forall i :: 0 <= i < |r| ==> Readable(read, r[i])
    ensures AllParse(read, r) && SortedBy(read, r)
    ensures forall n :: multiset(r)[n] == if Readable(read, n) then multiset(names)[n] else 0
  {
    var f := FilterBy(read, names);
    var r := SortBy(read, f);
    assert forall i :: 0 <= i < |r| ==> Readable(read, r[i]) by {
      forall i | 0 <= i < |r| ensures Readable(read, r[i]) {
        assert multiset(f)[r[i]] > 0;
      }
    }
    r
  }

  /** A name `filterAndSortBackups` keeps: a backup whose revision parses. */
  predicate Retained(name: string) {
    Readable(GetRev, name)
  }

  /** The revision of a retained name. */
  function RevOf(name: string): int64
    requires GetRev(name).Some?
  {
    GetRev(name).value
  }

  /** `backupNames.Less`: the sort's comparison with `getRev` as the reader.
      The source panics when either name has no revision; that is this
      function's precondition. */
  function Less(a: string, b: string): bool
    requires GetRev(a).Some? && GetRev(b).Some?
  {
    LessBy(GetRev, a, b)
  }

  /** Every comparison the sort makes is between retained names, so `Less`
      never panics, and it orders them by revision. */
  lemma {:induction false} LessNeverPanics(names: seq<string>, i: nat, j: nat)
    requires i < |FilterBy(GetRev, names)| && j < |FilterBy(GetRev, names)|
    ensures GetRev(FilterBy(GetRev, names)[i]).Some? && GetRev(FilterBy(GetRev, names)[j]).Some?
    ensures Less(FilterBy(GetRev, names)[i], FilterBy(GetRev, names)[j])
        <==> RevOf(FilterBy(GetRev, names)[i]) < RevOf(FilterBy(GetRev, names)[j])
  {
  }

  /** `filterAndSortBackups`: the retained names, each as often as listed,
      ordered by revision. Malformed names are dropped, never an error. */
  function FilterAndSortBackups(names: seq<string>): (r: seq<string>)
    ensures forall i :: 0 <= i < |r| ==> Retained(r[i])
    ensures AllParse(GetRev, r) && SortedBy(GetRev, r)
    ensures forall n :: multiset(r)[n] == if Retained(n) then multiset(names)[n] else 0
  {
    FilterSortBy(GetRev, names)
  }

  /** The last name of a filtered and sorted listing: none when nothing was
      readable, otherwise a readable listed name with the greatest revision. */
  function LatestBy(read: Reader, names: seq<string>): (r: Option<string>)
    ensures r.None? <==> forall i :: 0 <= i < |names| ==> !Readable(read, names[i])
    ensures r.Some? ==> r.value in names && Readable(read, r.value)
    ensures r.Some? ==> forall i :: 0 <= i < |names| && Readable(read, names[i]) ==>
      read(names[i]).value <= read(r.value).value
  {
    var sorted := FilterSortBy(read, names);
    FilterSortMembers(read, names);
    if |sorted| == 0 then None
    else
      LastIsGreatest(read, sorted);
      Some(sorted[|sorted| - 1])
  }

  /** A name is in the filtered and sorted listing exactly when it was listed and is readable. */
  lemma {:induction false} FilterSortMembers(read: Reader, names: seq<string>)
    ensures forall n :: n in FilterSortBy(read, names) <==> n in names && Readable(read, n)
  {
    var r := FilterSortBy(read, names);
    forall n
      ensures n in r <==> n in names && Readable(read, n)
    {
      assert n in r <==> multiset(r)[n] > 0;
      assert n in names <==> multiset(names)[n] > 0;
    }
  }

  /** The last element of a list sorted by revision has the greatest revision of any member. */
  lemma {:induction false} LastIsGreatest(read: Reader, s: seq<string>)
    requires |s| > 0 && AllParse(read, s) && SortedBy(read, s)
    ensures forall n :: n in s ==> read(n).Some? && read(n).value <= read(s[|s| - 1]).value
  {
    forall n | n in s
      ensures read(n).Some? && read(n).value <= read(s[|s| - 1]).value
    {
      var k :| 0 <= k < |s| && s[k] == n;
    }
  }

  /** `getLatestBackupName`: the empty string when nothing listed is a usable
      backup, otherwise a listed backup whose revision is the greatest. */
  function GetLatestBackupName(names: seq<string>): (r: string)
    ensures r == "" <==> forall i :: 0 <= i < |names| ==> !Retained(names[i])
    ensures r != "" ==> r in names && Retained(r)
    ensures r != "" ==> forall i :: 0 <= i < |names| && Retained(names[i]) ==> RevOf(names[i]) <= RevOf(r)
  {
    match LatestBy(GetRev, names)
    case None => ""
    case Some(r) =>
      assert |r| >= |BackupFilenameSuffix|;
      r
  }

  /** When the bucket holds keys written for one version, the latest backup is
      also the greatest retained name in plain string order. */
  lemma {:induction false} LatestIsGreatestName(ver: string, names: seq<string>)
    requires '_' !in ver
    requires forall i :: 0 <= i < |names| && Retained(names[i]) ==>
      exists rev: int64 :: 0 <= rev && names[i] == MakeBackupName(ver, rev)
    ensures forall i :: 0 <= i < |names| && Retained(names[i]) ==>
      !LexLess(GetLatestBackupName(names), names[i])
  {
    var r := GetLatestBackupName(names);
    forall i | 0 <= i < |names| && Retained(names[i])
      ensures !LexLess(r, names[i])
    {
      var a: int64 :| 0 <= a && names[i] == MakeBackupName(ver, a);
      var j :| 0 <= j < |names| && names[j] == r;
      var b: int64 :| 0 <= b && r == MakeBackupName(ver, b);
      RoundTrip(ver, a);
      RoundTrip(ver, b);
      NameOrderIsRevisionOrder(ver, b, a);
    }
  }

  lemma SampleKey5()
    ensures MakeBackupName("3.2.0", 5) == "3.2.0_0000000000000005_etcd.backup"
  {
    SingleDigitField(5);
    FifteenZeros();
  }

  lemma SampleKey10()
    ensures MakeBackupName("3.2.0", 10) == "3.2.0_000000000000000a_etcd.backup"
  {
    SingleDigitField(10);
    FifteenZeros();
  }

  /** Between two retained names with different revisions and a name that is
      no backup, the one with the higher revision is the latest. */
  lemma {:induction false} LatestOfTwo(x: string, y: string, other: string)
    requires Retained(x) && Retained(y) && RevOf(x) < RevOf(y) && !IsBackup(other)
    ensures GetLatestBackupName([x, y, other]) == y
  {
    var names := [x, y, other];
    var r := GetLatestBackupName(names);
    assert Retained(names[1]);
    assert r != names[0] && r != names[2];
  }

  /** Two readable names survive filtering in their order. */
  lemma {:induction false} FilterByTwo(read: Reader, x: string, y: string)
    requires Readable(read, x) && Readable(read, y)
    ensures FilterBy(read, [x, y]) == [x, y]
  {
    assert [x, y][1..] == [y] && [y][1..] == [];
    assert FilterBy(read, [y]) == [y] + FilterBy(read, []);
  }

  /** Two names with the same revision keep their order when sorted. */
  lemma {:induction false} SortByTwoEqual(read: Reader, x: string, y: string)
    requires read(x).Some? && read(x) == read(y)
    ensures SortBy(read, [x, y]) == [x, y]
  {
    assert [x, y][1..] == [y] && [y][1..] == [];
    assert SortBy(read, [y]) == InsertBy(read, y, []);
    assert InsertBy(read, x, [y]) == [x, y];
  }

  /** Of two readable names with the same revision, the later one is the
      last after sorting. */
  lemma {:induction false} LatestByEqualRevisions(read: Reader, x: string, y: string)
    requires Readable(read, x) && Readable(read, y) && read(x) == read(y)
    ensures LatestBy(read, [x, y]) == Some(y)
  {
    FilterByTwo(read, x, y);
    SortByTwoEqual(read, x, y);
    assert FilterSortBy(read, [x, y]) == [x, y];
  }

  /** Of two retained names with the same revision, the one listed later is
      the latest: the sort keeps them in listing order and the last is taken. */
  lemma {:induction false} LatestOfEqualRevisions(x: string, y: string)
    requires Retained(x) && Retained(y) && RevOf(x) == RevOf(y)
    ensures GetLatestBackupName([x, y]) == y
  {
    LatestByEqualRevisions(GetRev, x, y);
  }

  /** Between two keys of one version and a name that is no backup, the key
      with the higher revision is the latest. */
  lemma {:induction false} LatestOfTwoKeys(ver: string, a: int64, b: int64, other: string)
    requires '_' !in ver && a < b && !IsBackup(other)
    ensures GetLatestBackupName([MakeBackupName(ver, a), MakeBackupName(ver, b), other]) == MakeBackupName(ver, b)
  {
    RoundTrip(ver, a);
    RoundTrip(ver, b);
    LatestOfTwo(MakeBackupName(ver, a), MakeBackupName(ver, b), other);
  }

  /** The listing `{..5.., ..a.., not-a-backup}` yields the key of revision 10. */
  lemma LatestOfSampleListing()
    ensures GetLatestBackupName(["3.2.0_0000000000000005_etcd.backup",
                                 "3.2.0_000000000000000a_etcd.backup",
                                 "not-a-backup"]) == "3.2.0_000000000000000a_etcd.backup"
  {
    SampleKey5();
    SampleKey10();
    assert !IsBackup("not-a-backup");
    LatestOfTwoKeys("3.2.0", 5, 10, "not-a-backup");
  }
}

=== FILE: operator.dfy ===
/** The operator's reaction to one `EtcdBackup` key taken off its work queue. */
module Operator {
  import opened Wrappers
  import opened Api

  /** `handleBackup`: the storage type must be `s3`, checked first, and then
      the S3 source must be present. */
  function HandleBackup(spec: EtcdBackupSpec): (r: Outcome)
    ensures r.Pass? <==> spec.storageType == "s3" && spec.s3.Some?
    ensures spec.storageType != "s3" ==> r == Fail("unknown storage type: " + spec.storageType)
    ensures spec.storageType == "s3" && spec.s3.None? ==> r == Fail("s3 spec is not initialized")
  {
    if spec.storageType != "s3" then Fail("unknown storage type: " + spec.storageType)
    else if spec.s3.None? then Fail("s3 spec is not initialized")
    else Pass
  }

  /** What the informer's indexer answers for a key. */
  datatype Lookup = LookupError(error: string) | Absent | Present(obj: EtcdBackup)

  /** The outcome of `processItem` and the spec it handed to `handleBackup`, if any. */
  datatype ItemResult = ItemResult(err: Outcome, handled: Option<EtcdBackupSpec>)

  /** `processItem`: look the key up, deep-copy the object and validate its
      spec. `copyErr` is the deep copy's error, if it fails. */
  function ProcessItem(lookup: Lookup, copyErr: Option<string>): (r: ItemResult)
    ensures lookup.LookupError? ==> r == ItemResult(Fail(lookup.error), None)
    ensures lookup.Absent? ==> r == ItemResult(Pass, None)
    ensures lookup.Present? && copyErr.Some? ==> r == ItemResult(Fail(copyErr.value), None)
    ensures r.handled.Some? <==> lookup.Present? && copyErr.None?
    ensures r.handled.Some? ==> r.handled.value == lookup.obj.spec && r.err == Pass
  {
    match lookup
    case LookupError(e) => ItemResult(Fail(e), None)
    case Absent => ItemResult(Pass, None)
    case Present(obj) =>
      match copyErr
      case Some(e) => ItemResult(Fail(e), None)
      case None =>
        var _ := HandleBackup(obj.spec);
        ItemResult(Pass, Some(obj.spec))
  }

  /** A spec `handleBackup` rejects still leaves `processItem` successful:
      the validation error is dropped. */
  lemma {:induction false} RejectedSpecIsDropped(obj: EtcdBackup)
    requires HandleBackup(obj.spec).Fail?
    ensures ProcessItem(Present(obj), None).err == Pass
    ensures ProcessItem(Present(obj), None).handled == Some(obj.spec)
  {
  }
}

=== FILE: paths.dfy ===
/** Go's `path.Join` and `path.Clean` for slash-separated paths, stated over
    path elements: empty and `.` elements vanish, `..` removes the element
    before it, and a rooted path cannot climb above `/`. */
module Paths {
  import opened Strings

  /** An element that `Clean` keeps as it is. */
  predicate IsPlainElement(e: string) {
    e != "" && e != "." && e != ".." && '/' !in e
  }

  /** Processes the elements of a path left to right onto a stack of kept elements. */
  function CleanElements(stack: seq<string>, elems: seq<string>, rooted: bool): (r: seq<string>)
    decreases |elems|
  {
    if |elems| == 0 then stack
    else
      var e := elems[0];
      if e == "" || e == "." then CleanElements(stack, elems[1..], rooted)
      else if e == ".." then
        if |stack| > 0 && stack[|stack| - 1] != ".." then
          CleanElements(stack[..|stack| - 1], elems[1..], rooted)
        else if rooted then CleanElements(stack, elems[1..], rooted)
        else CleanElements(stack + [".."], elems[1..], rooted)
      else CleanElements(stack + [e], elems[1..], rooted)
  }

  /** `path.Clean`: the shortest path naming the same file by lexical processing. */
  function Clean(p: string): string
  {
    if p == "" then "."
    else
      var rooted := p[0] == '/';
      var kept := CleanElements([], Split(p, '/'), rooted);
      var out := (if rooted then "/" else "") + JoinWith(kept, '/');
      if out == "" then "." else out
  }

  /** `path.Join`: the non-empty elements from the first non-empty one on,
      joined with `/` and cleaned; the empty string when all are empty. */
  function Join(elems: seq<string>): (r: string)
    decreases |elems|
  {
    if |elems| == 0 then ""
    else if elems[0] != "" then Clean(JoinWith(elems, '/'))
    else Join(elems[1..])
  }

  /** Plain elements pass through `CleanElements` unchanged. */
  lemma {:induction false} CleanKeepsPlainElements(stack: seq<string>, elems: seq<string>, rooted: bool)
    requires forall i :: 0 <= i < |elems| ==> IsPlainElement(elems[i])
    ensures CleanElements(stack, elems, rooted) == stack + elems
    decreases |elems|
  {
    if |elems| > 0 {
      CleanKeepsPlainElements(stack + [elems[0]], elems[1..], rooted);
      assert stack + [elems[0]] + elems[1..] == stack + elems;
    }
  }

  /** Joining plain elements is plain concatenation with `/` between them. */
  lemma {:induction false} JoinPlain(elems: seq<string>)
    requires |elems| >= 1
    requires forall i :: 0 <= i < |elems| ==> IsPlainElement(elems[i])
    ensures Join(elems) == JoinWith(elems, '/')
  {
    var p := JoinWith(elems, '/');
    SplitJoin(elems, '/');
    CleanKeepsPlainElements([], elems, false);
    assert [] + elems == elems;
    JoinWithStart(elems, '/');
    assert p != "" && p[0] == elems[0][0];
  }

  /** A rooted path of plain elements is already clean. */
  lemma {:induction false} CleanRootedPlain(elems: seq<string>)
    requires |elems| >= 1
    requires forall i :: 0 <= i < |elems| ==> IsPlainElement(elems[i])
    ensures Clean("/" + JoinWith(elems, '/')) == "/" + JoinWith(elems, '/')
  {
    var p := "/" + JoinWith(elems, '/');
    var parts := [""] + elems;
    assert Split(p, '/') == parts by {
      JoinCons("", elems, '/');
      assert JoinWith(parts, '/') == p;
      assert forall i :: 0 <= i < |parts| ==> '/' !in parts[i] by {
        assert forall i :: 1 <= i < |parts| ==> parts[i] == elems[i - 1];
      }
      SplitJoin(parts, '/');
    }
    assert CleanElements([], parts, true) == elems by {
      assert parts[1..] == elems;
      CleanKeepsPlainElements([], elems, true);
      assert [] + elems == elems;
    }
    assert p[0] == '/';
  }

  /** Joining plain elements onto a rooted path of plain elements is plain
      concatenation with `/` between them. */
  lemma {:induction false} JoinRootedPlain(root: seq<string>, elems: seq<string>)
    requires |root| >= 1 && |elems| >= 1
    requires forall i :: 0 <= i < |root| ==> IsPlainElement(root[i])
    requires forall i :: 0 <= i < |elems| ==> IsPlainElement(elems[i])
    ensures Join(["/" + JoinWith(root, '/')] + elems) == "/" + JoinWith(root + elems, '/')
  {
    var h := "/" + JoinWith(root, '/');
    assert ([h] + elems)[0] == h != "";
    JoinCons(h, elems, '/');
    JoinWithAppend(root, elems, '/');
    assert h + ['/'] + JoinWith(elems, '/') == "/" + JoinWith(root + elems, '/');
    assert forall i :: 0 <= i < |root + elems| ==> IsPlainElement((root + elems)[i]) by {
      assert forall i :: |root| <= i < |root + elems| ==> (root + elems)[i] == elems[i - |root|];
    }
    CleanRootedPlain(root + elems);
  }

  /** A joined list starts with its first part. */
  lemma {:induction false} JoinWithStart(parts: seq<string>, sep: char)
    requires |parts| >= 1
    ensures |JoinWith(parts, sep)| >= |parts[0]|
    ensures JoinWith(parts, sep)[..|parts[0]|] == parts[0]
  {
    if |parts| > 1 {
      assert JoinWith(parts, sep) == parts[0] + [sep] + JoinWith(parts[1..], sep);
    }
  }
}

=== FILE: store.dfy ===
/** The S3 backend: staging a snapshot in a local file before uploading it
    under its backup key, and finding the latest key in the bucket. The file
    system and the object store are replaced by the outcome of each step. */
module Store {
  import opened Wrappers
  import opened Ints
  import Paths
  import opened BackupName
  import opened Listing

  /** A byte count as `io.Copy` reports it. */
  type ByteCount = n: int | 0 <= n <= INT64_MAX

  /** The steps `save` takes that leave a trace outside the process. */
  datatype Event =
    | Created(path: string)        // the staging file was opened
    | Copied(bytes: ByteCount)     // the snapshot stream was copied into it
    | Rewound                      // the file was sought back to its start
    | Put(key: string, ok: bool)   // the object store was asked to store `key`
    | Closed                       // the staging file was closed
    | Removed(path: string)        // the staging file was deleted

  /** How each step of `save` turns out: the error of creating the staging
      file, the byte count or error of the copy, and the errors of the rewind
      and of the put; `None` is Go's nil error. */
  datatype SaveEnv = SaveEnv(
    createErr: Option<string>, copied: Result<ByteCount>, seekErr: Option<string>, putErr: Option<string>)

  /** What `save` returns (`n` or -1, and the error) with the steps it took. */
  datatype SaveResult = SaveResult(n: int64, err: Option<string>, events: seq<Event>)

  /** The directory a backup sidecar stages its snapshots in, and the file
      name one snapshot is staged under. */
  function StagingPath(dir: string, key: string): string {
    Paths.Join([dir, key])
  }

  /** Keys the object store accepted; S3 puts are atomic, so these are the
      only objects a save makes visible. */
  function Uploaded(events: seq<Event>): set<string> {
    set i | 0 <= i < |events| && events[i].Put? && events[i].ok :: events[i].key
  }

  /** Some `Put` appears in the trace. */
  predicate Attempted(events: seq<Event>) {
    exists i :: 0 <= i < |events| && events[i].Put?
  }

  /** The object store is asked to put at most once. */
  predicate AtMostOnePut(events: seq<Event>) {
    forall i, j :: 0 <= i < j < |events| && events[i].Put? ==> !events[j].Put?
  }

  /** The position of each kind of step in the protocol of `save`. */
  function StepRank(e: Event): nat {
    match e
    case Created(_) => 0
    case Copied(_) => 1
    case Rewound => 2
    case Put(_, _) => 3
    case Closed => 4
    case Removed(_) => 5
  }

  /** The steps appear in protocol order, each at most once: one file is
      created, one copy is made, one put is attempted. */
  predicate InProtocolOrder(events: seq<Event>) {
    forall i, j :: 0 <= i < j < |events| ==> StepRank(events[i]) < StepRank(events[j])
  }

  /** Every `Put` comes after a `Copied` and a `Rewound`. */
  predicate PutOnlyAfterStaging(events: seq<Event>) {
    forall i :: 0 <= i < |events| && events[i].Put? ==>
      exists j, k :: 0 <= j < k < i && events[j].Copied? && events[k].Rewound?
  }

  /** Once the file was created, the trace ends by closing and removing it,
      and nothing is removed earlier. */
  predicate CleansUp(events: seq<Event>, path: string) {
    && |events| >= 3
    && events[0] == Created(path)
    && events[|events| - 2] == Closed
    && events[|events| - 1] == Removed(path)
    && forall i :: 0 <= i < |events| - 2 ==> !events[i].Removed? && !events[i].Closed?
  }

  /** The traces of `save` once the staging file exists: the file is created,
      possibly copied into, possibly rewound and put, then closed and removed. */
  function StagedTrace(path: string, copied: Option<ByteCount>, put: Option<(string, bool)>): seq<Event> {
    [Created(path)]
    + (if copied.Some? then [Copied(copied.value)] else [])
    + (if put.Some? then [Rewound, Put(put.value.0, put.value.1)] else [])
    + [Closed, Removed(path)]
  }

  /** Every staged trace cleans up, keeps protocol order, copies the given
      count, and puts only the given key, after the copy and the rewind. */
  lemma {:induction false} StagedTraceFacts(path: string, copied: Option<ByteCount>, put: Option<(string, bool)>)
    requires put.Some? ==> copied.Some?
    ensures CleansUp(StagedTrace(path, copied, put), path)
    ensures InProtocolOrder(StagedTrace(path, copied, put))
    ensures forall i :: 0 <= i < |StagedTrace(path, copied, put)| && StagedTrace(path, copied, put)[i].Copied? ==>
      copied == Some(StagedTrace(path, copied, put)[i].bytes)
    ensures Attempted(StagedTrace(path, copied, put)) <==> put.Some?
    ensures forall i :: 0 <= i < |StagedTrace(path, copied, put)| && StagedTrace(path, copied, put)[i].Put? ==>
      put == Some((StagedTrace(path, copied, put)[i].key, StagedTrace(path, copied, put)[i].ok))
    ensures PutOnlyAfterStaging(StagedTrace(path, copied, put)) && AtMostOnePut(StagedTrace(path, copied, put))
    ensures Uploaded(StagedTrace(path, copied, put)) == if put.Some? && put.value.1 then {put.value.0} else {}
  {
    var t := StagedTrace(path, copied, put);
    if put.Some? {
      assert t == [Created(path), Copied(copied.value), Rewound, Put(put.value.0, put.value.1), Closed, Removed(path)];
      assert t[3].Put? && t[1].Copied? && t[2].Rewound?;
      assert forall i :: 0 <= i < |t| && i != 3 ==> !t[i].Put?;
    } else if copied.Some? {
      assert t == [Created(path), Copied(copied.value), Closed, Removed(path)];
    } else {
      assert t == [Created(path), Closed, Removed(path)];
    }
  }

  /** The steps of `save` for a staging file at `path` uploaded as `key`:
      the deferred close and remove run on every path once the file exists,
      and the store is asked to put `key` only after the copy and the rewind.
      The copy and create errors are wrapped, the seek and put errors are
      returned as they are. */
  function Stage(path: string, key: string, env: SaveEnv): (r: SaveResult)
    ensures r.err.None? <==> env.createErr.None? && env.copied.Success? && env.seekErr.None? && env.putErr.None?
    ensures r.err.Some? ==> r.n == -1
    ensures r.err.None? ==> r.n == env.copied.value
    ensures env.createErr.Some? ==> r.err == Some("failed to create snapshot tempfile: " + env.createErr.value)
    ensures env.createErr.None? && env.copied.Failure? ==> r.err == Some("failed to save snapshot: " + env.copied.error)
    ensures env.createErr.None? && env.copied.Success? && env.seekErr.Some? ==> r.err == env.seekErr
    ensures env.createErr.None? && env.copied.Success? && env.seekErr.None? && env.putErr.Some? ==> r.err == env.putErr
    ensures env.createErr.Some? ==> r.events == []
    ensures env.createErr.None? ==> CleansUp(r.events, path)
    ensures InProtocolOrder(r.events)
    ensures forall i :: 0 <= i < |r.events| && r.events[i].Copied? ==> env.copied == Success(r.events[i].bytes)
    ensures Attempted(r.events) <==> env.createErr.None? && env.copied.Success? && env.seekErr.None?
    ensures forall i :: 0 <= i < |r.events| && r.events[i].Put? ==> r.events[i].key == key
    ensures PutOnlyAfterStaging(r.events) && AtMostOnePut(r.events)
    ensures Uploaded(r.events) == if r.err.None? then {key} else {}
  {
    if env.createErr.Some? then
      SaveResult(-1, Some("failed to create snapshot tempfile: " + env.createErr.value), [])
    else match env.copied
      case Failure(e) =>
        StagedTraceFacts(path, None, None);
        SaveResult(-1, Some("failed to save snapshot: " + e), StagedTrace(path, None, None))
      case Success(n) =>
        if env.seekErr.Some? then
          StagedTraceFacts(path, Some(n), None);
          SaveResult(-1, env.seekErr, StagedTrace(path, Some(n), None))
        else
          var put := Some((key, env.putErr.None?));
          StagedTraceFacts(path, Some(n), put);
          if env.putErr.None? then SaveResult(n, None, StagedTrace(path, Some(n), put))
          else SaveResult(-1, env.putErr, StagedTrace(path, Some(n), put))
  }

  /** `s3Backend.save`: stage the snapshot at `dir/key` and put it under
      `key = makeBackupName(version, snapRev)`. */
  function Save(dir: string, version: string, snapRev: int64, env: SaveEnv): (r: SaveResult)
    ensures r.err.None? <==> env.createErr.None? && env.copied.Success? && env.seekErr.None? && env.putErr.None?
    ensures r.err.Some? ==> r.n == -1
    ensures r.err.None? ==> r.n == env.copied.value
    ensures env.createErr.Some? ==> r.err == Some("failed to create snapshot tempfile: " + env.createErr.value)
    ensures env.createErr.None? && env.copied.Failure? ==> r.err == Some("failed to save snapshot: " + env.copied.error)
    ensures env.createErr.None? && env.copied.Success? && env.seekErr.Some? ==> r.err == env.seekErr
    ensures env.createErr.None? && env.copied.Success? && env.seekErr.None? && env.putErr.Some? ==> r.err == env.putErr
    ensures env.createErr.Some? ==> r.events == []
    ensures env.createErr.None? ==> CleansUp(r.events, StagingPath(dir, MakeBackupName(version, snapRev)))
    ensures InProtocolOrder(r.events)
    ensures forall i :: 0 <= i < |r.events| && r.events[i].Copied? ==> env.copied == Success(r.events[i].bytes)
    ensures Attempted(r.events) <==> env.createErr.None? && env.copied.Success? && env.seekErr.None?
    ensures forall i :: 0 <= i < |r.events| && r.events[i].Put? ==> r.events[i].key == MakeBackupName(version, snapRev)
    ensures PutOnlyAfterStaging(r.events) && AtMostOnePut(r.events)
    ensures Uploaded(r.events) == if r.err.None? then {MakeBackupName(version, snapRev)} else {}
  {
    var key := MakeBackupName(version, snapRev);
    Stage(StagingPath(dir, key), key, env)
  }

  /** `s3Backend.getLatest`: the latest backup name in the bucket listing,
      or the listing's error. */
  function GetLatest(listing: Result<seq<string>>): (r: Result<string>)
    ensures listing.Failure? <==> r.Failure?
    ensures listing.Failure? ==> r.error == "failed to list s3 bucket: " + listing.error
    ensures listing.Success? && r.value == "" ==>
      forall i :: 0 <= i < |listing.value| ==> !Retained(listing.value[i])
    ensures listing.Success? && r.value != "" ==>
      && r.value in listing.value && Retained(r.value)
      && forall i :: 0 <= i < |listing.value| && Retained(listing.value[i]) ==>
           RevOf(listing.value[i]) <= RevOf(r.value)
  {
    match listing
    case Failure(e) => Failure("failed to list s3 bucket: " + e)
    case Success(keys) => Success(GetLatestBackupName(keys))
  }
}

=== FILE: strings.dfy ===
/** The few operations of Go's `strings` package the backup engine relies on,
    plus Go's ordering of strings. Strings are sequences of code points; Go
    compares UTF-8 bytes, and UTF-8 byte order agrees with code point order. */
module Strings {
  import opened Wrappers

  /** `strings.HasSuffix`. */
  predicate HasSuffix(s: string, suffix: string) {
    |suffix| <= |s| && s[|s| - |suffix|..] == suffix
  }

  /** Position of the first `c` in `s` (`strings.Index` with a one-character separator). */
  function IndexOf(s: string, c: char): (r: Option<nat>)
    ensures r.Some? ==> r.value < |s|
  {
    if |s| == 0 then None
    else if s[0] == c then Some(0)
    else match IndexOf(s[1..], c)
      case None => None
      case Some(i) => Some(i + 1)
  }

  /** `IndexOf` finds a `c` exactly when there is one, and no `c` comes before the one it finds. */
  lemma {:induction false} IndexOfSpec(s: string, c: char)
    ensures IndexOf(s, c).None? <==> c !in s
    ensures IndexOf(s, c).Some? ==> s[IndexOf(s, c).value] == c && c !in s[..IndexOf(s, c).value]
    decreases |s|
  {
    if |s| > 0 && s[0] != c {
      IndexOfSpec(s[1..], c);
      assert s == [s[0]] + s[1..];
      match IndexOf(s[1..], c)
      case None =>
      case Some(i) =>
        assert s[..i + 1] == [s[0]] + s[1..][..i];
    }
  }

  /** A `c` with no `c` before it is the one `IndexOf` finds. */
  lemma {:induction false} IndexOfFirst(s: string, c: char, k: nat)
    requires k < |s| && s[k] == c && c !in s[..k]
    ensures IndexOf(s, c) == Some(k)
  {
    IndexOfSpec(s, c);
  }

  /** The parts joined back together with `sep` between neighbours (`strings.Join`). */
  function JoinWith(parts: seq<string>, sep: char): string
  {
    if |parts| == 0 then ""
    else if |parts| == 1 then parts[0]
    else parts[0] + [sep] + JoinWith(parts[1..], sep)
  }

  /** Joining a part in front of a non-empty list puts one separator between them. */
  lemma {:induction false} JoinCons(x: string, rest: seq<string>, sep: char)
    requires |rest| >= 1
    ensures JoinWith([x] + rest, sep) == x + [sep] + JoinWith(rest, sep)
  {
    assert ([x] + rest)[1..] == rest;
  }

  /** Joining two non-empty lists puts one separator between their joins. */
  lemma {:induction false} JoinWithAppend(xs: seq<string>, ys: seq<string>, sep: char)
    requires |xs| >= 1 && |ys| >= 1
    ensures JoinWith(xs + ys, sep) == JoinWith(xs, sep) + [sep] + JoinWith(ys, sep)
    decreases |xs|
  {
    if |xs| == 1 {
      JoinCons(xs[0], ys, sep);
      assert [xs[0]] + ys == xs + ys;
    } else {
      JoinWithAppend(xs[1..], ys, sep);
      assert (xs + ys)[1..] == xs[1..] + ys;
    }
  }

  /** `strings.SplitN(s, sep, n)` for `n >= 1`: at most `n` parts, the last one
      holding the unsplit remainder. */
  function SplitN(s: string, sep: char, n: nat): (parts: seq<string>)
    requires n >= 1
    ensures 1 <= |parts| <= n
    decreases n
  {
    if n == 1 then [s]
    else match IndexOf(s, sep)
      case None => [s]
      case Some(i) => [s[..i]] + SplitN(s[i + 1..], sep, n - 1)
  }

  /** One step of `SplitN`: cut at the first separator, split the remainder. */
  lemma {:induction false} SplitNStep(s: string, sep: char, n: nat) returns (i: nat)
    requires n > 1 && sep in s
    ensures i < |s| && s[i] == sep && sep !in s[..i]
    ensures SplitN(s, sep, n) == [s[..i]] + SplitN(s[i + 1..], sep, n - 1)
  {
    IndexOfSpec(s, sep);
    i := IndexOf(s, sep).value;
  }

  /** The parts of `SplitN` join back to the input. */
  lemma {:induction false} SplitNJoin(s: string, sep: char, n: nat)
    requires n >= 1
    ensures JoinWith(SplitN(s, sep, n), sep) == s
    decreases n
  {
    if n > 1 && sep in s {
      var i := SplitNStep(s, sep, n);
      var rest := SplitN(s[i + 1..], sep, n - 1);
      SplitNJoin(s[i + 1..], sep, n - 1);
      JoinCons(s[..i], rest, sep);
      assert s[..i] + [sep] + s[i + 1..] == s;
    } else {
      IndexOfSpec(s, sep);
      assert SplitN(s, sep, n) == [s];
    }
  }

  /** Every part of `SplitN` but the last is free of the separator, and so is
      the last when fewer than `n` parts came out. */
  lemma {:induction false} SplitNSeparators(s: string, sep: char, n: nat)
    requires n >= 1
    ensures forall i :: 0 <= i < |SplitN(s, sep, n)| - 1 ==> sep !in SplitN(s, sep, n)[i]
    ensures |SplitN(s, sep, n)| < n ==> sep !in SplitN(s, sep, n)[|SplitN(s, sep, n)| - 1]
    decreases n
  {
    var parts := SplitN(s, sep, n);
    if n > 1 && sep in s {
      var i := SplitNStep(s, sep, n);
      var rest := SplitN(s[i + 1..], sep, n - 1);
      SplitNSeparators(s[i + 1..], sep, n - 1);
      assert parts[|parts| - 1] == rest[|rest| - 1];
      forall k | 0 <= k < |parts| - 1
        ensures sep !in parts[k]
      {
        if k > 0 {
          assert parts[k] == rest[k - 1];
        }
      }
    } else {
      IndexOfSpec(s, sep);
      assert parts == [s];
    }
  }

  /** `strings.Split(s, sep)`: every part, none of them containing `sep`. */
  function Split(s: string, sep: char): (parts: seq<string>)
    ensures |parts| >= 1
    ensures JoinWith(parts, sep) == s
    ensures forall i :: 0 <= i < |parts| ==> sep !in parts[i]
    decreases |s|
  {
    IndexOfSpec(s, sep);
    match IndexOf(s, sep)
    case None => [s]
    case Some(i) =>
      var rest := Split(s[i + 1..], sep);
      JoinCons(s[..i], rest, sep);
      assert s == s[..i] + [sep] + s[i + 1..];
      var parts := [s[..i]] + rest;
      assert forall k :: 1 <= k < |parts| ==> parts[k] == rest[k - 1];
      parts
  }

  /** Splitting undoes joining when no part contains the separator. */
  lemma {:induction false} SplitJoin(parts: seq<string>, sep: char)
    requires |parts| >= 1
    requires forall i :: 0 <= i < |parts| ==> sep !in parts[i]
    ensures Split(JoinWith(parts, sep), sep) == parts
    decreases |parts|
  {
    if |parts| > 1 {
      var s := JoinWith(parts, sep);
      assert s == parts[0] + [sep] + JoinWith(parts[1..], sep);
      assert s[|parts[0]|] == sep;
      assert s[..|parts[0]|] == parts[0];
      IndexOfFirst(s, sep, |parts[0]|);
      assert s[|parts[0]| + 1..] == JoinWith(parts[1..], sep);
      SplitJoin(parts[1..], sep);
    }
  }

  /** `strings.Replace(s, [from], [to], -1)` for one-character patterns. */
  function ReplaceAll(s: string, from: char, to: char): (r: string)
    ensures |r| == |s|
    ensures forall i :: 0 <= i < |s| ==> r[i] == (if s[i] == from then to else s[i])
  {
    if |s| == 0 then ""
    else [if s[0] == from then to else s[0]] + ReplaceAll(s[1..], from, to)
  }

  /** Go's `a < b` on strings: lexicographic order, a proper prefix first. */
  predicate LexLess(a: string, b: string)
    decreases |a|
  {
    if |a| == 0 then |b| > 0
    else if |b| == 0 then false
    else if a[0] != b[0] then a[0] < b[0]
    else LexLess(a[1..], b[1..])
  }

  /** No string is below itself. */
  lemma {:induction false} LexLessIrreflexive(a: string)
    ensures !LexLess(a, a)
    decreases |a|
  {
    if |a| > 0 {
      LexLessIrreflexive(a[1..]);
    }
  }

  /** At most one of `a < b` and `b < a` holds. */
  lemma {:induction false} LexLessAsymmetric(a: string, b: string)
    requires LexLess(a, b)
    ensures !LexLess(b, a)
    decreases |a|
  {
    if |a| > 0 && |b| > 0 && a[0] == b[0] {
      LexLessAsymmetric(a[1..], b[1..]);
    }
  }

  /** A common prefix does not change the order. */
  lemma {:induction false} LexLessCommonPrefix(p: string, a: string, b: string)
    ensures LexLess(p + a, p + b) <==> LexLess(a, b)
    decreases |p|
  {
    if |p| == 0 {
      assert p + a == a && p + b == b;
    } else {
      assert (p + a)[0] == (p + b)[0];
      assert (p + a)[1..] == p[1..] + a;
      assert (p + b)[1..] == p[1..] + b;
      LexLessCommonPrefix(p[1..], a, b);
    }
  }
}

=== FILE: wrappers.dfy ===
/** Failure-carrying values used in place of Go's `(value, error)` pairs and nil pointers. */
module Wrappers {

  /** An optional value: `None` stands for Go's nil pointer or a failed lookup. */
  datatype Option<+T> = None | Some(value: T)

  /** Either a value or an error message; Go's `(T, error)` return. */
  datatype Result<+T> = Success(value: T) | Failure(error: string)

  /** A Go `error` return with no value: nil (`Pass`) or an error message. */
  datatype Outcome = Pass | Fail(error: string)
}

/** Go's fixed-width signed integer, used for revisions and byte counts. */
module Ints {

  const INT64_MIN: int := -0x8000_0000_0000_0000
  const INT64_MAX: int := 0x7fff_ffff_ffff_ffff

  type int64 = x: int | INT64_MIN <= x <= INT64_MAX
}
